=== FILE: README.md ===
# aws-pdf-gen: a Dafny model of the conversion pipeline

The system takes user uploads (images and office documents), stores them in
S3 under `input/`, and converts them to PDF in a Lambda triggered by the
object-created event. The Lambda writes each conversion's status to a DynamoDB
table. A small HTTP API accepts uploads and reports the status of one file
and statistics over all of them.

This project models the pure logic inside that glue, in three parts:

- **The conversion Lambda** (`lambda_app/convert_to_pdf.py`, module
  `ConvertToPdf`, properties in `LambdaProperties`). It covers:
  - deriving the file id and the routing extension from the object key
    (`os.path.basename` and `os.path.splitext` are modelled in `PathText`);
  - the fixed routing table to the image or document converter;
  - the output key `output/{file_id}.pdf`;
  - the semantics of `update_dynamodb_status`, an upsert that always
    refreshes `updated_at` and sets `error_message` to the text or NULL;
  - the per-record `try`/`except` loop of `lambda_handler`, as a fold
    (module `Batch`) over the event's records.
- **The HTTP API** (`main.py`, module `Api`). It covers the extension check
  and record creation of `upload_file`, the attribute mapping of
  `get_file_status`, and the counting fold of `get_file_statistics`.
- **How the two meet** (module `Pipeline`). It covers the key an upload
  stores, what the Lambda derives from that key, and the items both sides
  write to the same table.

The S3 bucket and the DynamoDB table are one value, `World`: a
`map<string, Item>` keyed by `file_id` and a set of stored objects. Each
clock reading, each converter outcome and each exception the stores raise is
an explicit input (`RecordEnv`, `WriteEnv`, `UploadEnv`). Timestamps are
integers.

## Behaviour the model makes explicit

The code behaves as follows, and the model follows it:

- A failing PROCESSING write does not abort the record. It is caught by the
  same `except`, which then attempts a FAILED write carrying the store's
  error text (`LambdaProperties.KeyProcessingFault`).
- A failing SUCCESS write after a successful conversion is also caught, and
  a FAILED write follows it (`LambdaProperties.KeySuccessFault`). If the
  store refuses that write too, the item stays PROCESSING even though the
  PDF exists (`LambdaProperties.KeyStuckInProcessing`). Here, as everywhere
  in the model, a store call that raises is one the store did not apply.
- Status writes are unconditional overwrites. Nothing enforces forward-only
  transitions, and `put_item` does not refuse an existing `file_id`.
- `converted_filename` is never written by either side
  (`Pipeline.NoConvertedFilenameEver`).
- The upload's file id is `{14-character stamp}_{filename}`. The Lambda's
  file id is the basename of `input/{filename}` without its extension. For
  one upload the two never coincide (`Pipeline.FileIdsNeverMatch`). So:
  - the upload's own event never updates the record that upload created,
    which stays PENDING however the event is processed
    (`Pipeline.UploadRecordStaysPending`);
  - when no item with the Lambda's id exists yet, the item the Lambda
    writes is a fresh one without `original_filename` or `created_at`, and
    both read endpoints then answer 500
    (`Pipeline.ConvertedUploadBreaksReads`).
- Another upload's event can hit that record. A file named
  `{stamp}_{name}.{e}` gets, from the Lambda, exactly the id an upload of
  `name` recorded under the same stamp (`Pipeline.StampedNameCollides`).
  If both uploads happen in the same second, the Lambda then writes
  SUCCESS or FAILED into the first upload's record, which keeps its name
  and creation time, so status lookup answers normally
  (`Pipeline.StampedNameLandsOnUpload`).
- The upload check and the Lambda's routing read different extensions. A
  dotless name such as `txt` passes the upload check, but `splitext` finds
  no extension in it, so the Lambda marks it unsupported
  (`Pipeline.TxtDiverges`).

## Model

| member | source | states |
|---|---|---|
| `PathText.Basename` | lambda_app/convert_to_pdf.py:87 | `basename` is a suffix of the path, and when shorter than the path it follows a `/` |
| `PathText.SplitExt` | lambda_app/convert_to_pdf.py:91 | `splitext` splits the path into root and extension that concatenate back to the path, the extension empty or starting with a dot |
| `PathText.SplitExtFindsExtension` | lambda_app/convert_to_pdf.py:91 | `splitext` finds an extension exactly when the key's last component has a dot with a non-dot character somewhere before it (so `.bashrc` and `...` have none) |
| `PathText.SplitExtShape` | lambda_app/convert_to_pdf.py:91 | the extension `splitext` returns holds no `/` and no dot after its leading one |
| `PathText.SplitExtLower` | lambda_app/convert_to_pdf.py:91-92 | `splitext` commutes with lower-casing: lower-casing the key and then splitting gives the lower-cased parts |
| `PathText.ExtOfBasename` | lambda_app/convert_to_pdf.py:87-91 | a key has the same extension as its basename, so the id derivation and the routing cut the name at the same dot |
| `PathText.BasenameHasNoSeparator` | lambda_app/convert_to_pdf.py:87 | the basename holds no `/` (the whole last component is taken) |
| `PathText.Lower` | lambda_app/convert_to_pdf.py:92 | lower-casing keeps the length, leaves no upper-case ASCII letter, and changes a character only to its lower case; its partners are `PathText.LowerIdempotent` and `PathText.SplitExtLower` |
| `PathText.LowerIdempotent` | lambda_app/convert_to_pdf.py:92 | lower-casing twice is lower-casing once |
| `ConvertToPdf.ErrorValue` | lambda_app/convert_to_pdf.py:29 | the stored `error_message` is the text when the text is non-empty, and NULL otherwise; it is never left absent |
| `ConvertToPdf.WriteStatus` | lambda_app/convert_to_pdf.py:16-31 | a status write is an upsert on one key: it sets status, `updated_at` and `error_message`, keeps every other attribute of an existing item, creates a bare item for a missing key, and changes no other key |
| `ConvertToPdf.WriteStatusOverwrites` | lambda_app/convert_to_pdf.py:19-30 | a later write to the same item fully overrides an earlier one, so nothing of a PROCESSING write survives the final write |
| `ConvertToPdf.Attempt` | lambda_app/convert_to_pdf.py:16-34 | a write the store rejects leaves the table unchanged and is reported as not applied; an accepted write is `WriteStatus` at the clock reading |
| `ConvertToPdf.FileIdOf` | lambda_app/convert_to_pdf.py:87 | the file id followed by the key's raw extension is exactly the key's basename, and it holds no `/` |
| `ConvertToPdf.ExtensionOf` | lambda_app/convert_to_pdf.py:91-92 | the routing extension is as long as the raw one, and is empty or a dot followed by characters that are neither `.` nor `/` |
| `ConvertToPdf.SimpleKey` | lambda_app/convert_to_pdf.py:87-92 | for a key `dir/stem.e` whose stem holds no `/` and is not all dots, and whose `e` holds no `.` or `/`, the file id is `stem` and the raw extension is `.e` |
| `ConvertToPdf.SimpleKeyExtension` | lambda_app/convert_to_pdf.py:91-92 | for such a key the routing extension is `.e` lower-cased |
| `ConvertToPdf.ExtensionCaseInsensitive` | lambda_app/convert_to_pdf.py:91-92 | keys that differ only in letter case get the same routing extension |
| `ConvertToPdf.TestKeyFileId` | tests/test_lambda.py:57 | the tests' keys `input/test.png` and `input/test.gif` both give the file id `test` |
| `ConvertToPdf.PngKeyRouted` | tests/test_lambda.py:51-57 | the image test's key `input/test.png` is routed to the image converter |
| `ConvertToPdf.GifKeyRejected` | tests/test_lambda.py:74-85 | the unsupported-type test's key `input/test.gif` is rejected with `Unsupported file type: .gif` |
| `ConvertToPdf.Route` | lambda_app/convert_to_pdf.py:94-100 | the image converter is chosen exactly for `.jpg/.jpeg/.png`, the document converter exactly for `.doc/.docx/.xls/.xlsx/.txt`, and every other extension (the empty one included) fails with `Unsupported file type: <ext>` |
| `ConvertToPdf.RoutePng` | lambda_app/convert_to_pdf.py:95-96 | `.png` is routed to the image converter |
| `ConvertToPdf.RouteRejectsEmpty` | lambda_app/convert_to_pdf.py:99-100 | the empty extension and `.gif` are rejected with the exact error texts |
| `ConvertToPdf.OutputKey` | lambda_app/convert_to_pdf.py:52 | the output key is `output/`, the file id, then `.pdf`, and the file id can be read back from it |
| `ConvertToPdf.OutputKeyInjective` | lambda_app/convert_to_pdf.py:75 | two files share an output object exactly when they have the same file id |
| `ConvertToPdf.Convert` | lambda_app/convert_to_pdf.py:36-79 | a converter returns its outcome instead of raising; on success exactly `output/{file_id}.pdf` is added to the event's bucket, on failure nothing changes, and the status table is never touched |
| `ConvertToPdf.Fail` | lambda_app/convert_to_pdf.py:107-115 | the `except` branch appends one FAILED write with the caught text, and only that item can change |
| `ConvertToPdf.ProcessKey` | lambda_app/convert_to_pdf.py:89-115 | PROCESSING is always attempted first; only the record's own item changes; the converter is invoked exactly when PROCESSING went through and the extension routes; the output object appears exactly when the converter also succeeds |
| `ConvertToPdf.ProcessRecord` | lambda_app/convert_to_pdf.py:83-115 | one record changes at most the item of its own file id and adds at most its own output object |
| `ConvertToPdf.LambdaHandler` | lambda_app/convert_to_pdf.py:81-117 | whenever the event has `Records` the handler returns 200 `Processing complete`, whatever happened to individual records; among the modelled errors a missing `Records` is the only escaping one |
| `Batch.RunConcat` | lambda_app/convert_to_pdf.py:83 | the loop over a batch is the loop over its first part, then over the rest starting from the state the first part left, with the attempted writes concatenated |
| `Batch.RunAt` | lambda_app/convert_to_pdf.py:83 | the state after the loop is what the records after position `i` make of the state record `i` left |
| `Batch.RunPreserves` | lambda_app/convert_to_pdf.py:83 | a property of the store each admissible record keeps holds after the whole loop |
| `LambdaProperties.KeyOutcome` | lambda_app/convert_to_pdf.py:89-113 | with working store writes, the item ends SUCCESS iff the extension routes and the converter succeeds, and otherwise FAILED with the routing error or `Conversion failed`; SUCCESS clears the error to NULL; exactly two writes are made |
| `LambdaProperties.KeyUnsupported` | lambda_app/convert_to_pdf.py:89-100 | an unsupported extension still passes PROCESSING, then FAILED with the routing error, and no converter runs |
| `LambdaProperties.KeyProcessingFault` | lambda_app/convert_to_pdf.py:89 | a rejected PROCESSING write skips conversion and leads to a FAILED write carrying the store's error |
| `LambdaProperties.KeySuccessFault` | lambda_app/convert_to_pdf.py:102-113 | a rejected SUCCESS write after an uploaded PDF leads to a FAILED write |
| `LambdaProperties.KeyTerminal` | lambda_app/convert_to_pdf.py:102-113 | when the FAILED write can go through, the item always ends SUCCESS or FAILED, never PROCESSING |
| `LambdaProperties.KeyStuckInProcessing` | lambda_app/convert_to_pdf.py:102-115 | when the store refuses both final writes after a conversion, the item is left PROCESSING although the PDF exists |
| `LambdaProperties.KeyIgnoresStore` | lambda_app/convert_to_pdf.py:89-113 | the writes a record attempts and the converter it calls do not depend on the store's contents |
| `LambdaProperties.RecordOutcome` | lambda_app/convert_to_pdf.py:85-113 | for a record read from the event, SUCCESS iff the lower-cased extension is supported and the converter succeeds, otherwise FAILED naming the extension or the conversion failure |
| `LambdaProperties.ImageTestRecord` | tests/test_lambda.py:49-59 | the image test's record calls the image converter for `test`, writes PROCESSING then SUCCESS, and stores `output/test.pdf` |
| `LambdaProperties.ConvertedRecordAs` | lambda_app/convert_to_pdf.py:89-103 | a routed, converted record with working writes makes exactly the writes PROCESSING then SUCCESS |
| `LambdaProperties.GifTestRecord` | tests/test_lambda.py:72-85 | the unsupported-type test's record ends FAILED under `test` with `Unsupported file type: .gif` |
| `LambdaProperties.RejectedRecordAs` | lambda_app/convert_to_pdf.py:89-113 | a record whose extension does not route ends FAILED with the routing error, and no converter is called |
| `LambdaProperties.MissingKeyChangesNothing` | lambda_app/convert_to_pdf.py:86-115 | a record without a readable key makes no write at all, since the `except` branch cannot read the key either |
| `LambdaProperties.MissingBucketWritesFailed` | lambda_app/convert_to_pdf.py:85-113 | a record without a bucket name fails before PROCESSING, and the `except` branch writes FAILED with the `KeyError` text |
| `LambdaProperties.HandleRecordsIgnoresStore` | lambda_app/convert_to_pdf.py:83-115 | the writes a batch attempts are the same whatever the store held, so an earlier record cannot change what a later one tries |
| `LambdaProperties.HandleRecordsUntouched` | lambda_app/convert_to_pdf.py:83-115 | an item no record of the batch writes is left unchanged |
| `LambdaProperties.BatchIsolation` | lambda_app/convert_to_pdf.py:83-115 | after the whole batch, a record's item is what that record left, unless a later record writes the same item |
| `LambdaProperties.BatchRecordOutcome` | lambda_app/convert_to_pdf.py:83-115 | `RecordOutcome` holds inside any batch, whatever the records before did: SUCCESS iff supported and converted, otherwise FAILED with `Unsupported file type: <ext>` or `Conversion failed` |
| `LambdaProperties.BatchUnsupportedFails` | lambda_app/convert_to_pdf.py:83-115 | in any batch, an unsupported record ends FAILED with the routing error |
| `LambdaProperties.BatchConvertedSucceeds` | lambda_app/convert_to_pdf.py:83-115 | in any batch, a routed record whose converter succeeds ends SUCCESS |
| `LambdaProperties.UnsupportedThenSupported` | lambda_app/convert_to_pdf.py:81-117 | an unsupported file earlier in a batch does not stop a later supported one from ending SUCCESS, and the handler answers 200 |
| `LambdaProperties.AttemptKeepsErrorIffFailed` | lambda_app/convert_to_pdf.py:16-29 | a write carrying text exactly for FAILED keeps "error present iff FAILED" |
| `LambdaProperties.KeyKeepsErrorIffFailed` | lambda_app/convert_to_pdf.py:89-115 | with non-empty error texts, one record keeps "error present iff FAILED" on every item |
| `LambdaProperties.ProcessRecordKeepsErrorIffFailed` | lambda_app/convert_to_pdf.py:83-115 | the same for a record read from the event |
| `LambdaProperties.HandleRecordsKeepsErrorIffFailed` | lambda_app/convert_to_pdf.py:83-115 | the same across a whole batch |
| `LambdaProperties.AttemptKeepsNoConverted` | lambda_app/convert_to_pdf.py:22 | a status write never sets `converted_filename` |
| `LambdaProperties.KeyKeepsNoConverted` | lambda_app/convert_to_pdf.py:89-115 | no path of one record sets `converted_filename` |
| `LambdaProperties.ProcessRecordKeepsNoConverted` | lambda_app/convert_to_pdf.py:83-115 | the same for any record read from the event, with any store faults |
| `LambdaProperties.HandleRecordsKeepsNoConverted` | lambda_app/convert_to_pdf.py:83-115 | the same across any batch |
| `Api.UploadExtensionShape` | main.py:50 | the upload's extension holds no dot, is the lower-cased end of the filename, and is either the whole name or preceded by a dot |
| `Api.UploadExtensionNoDot` | main.py:50 | a filename without a dot is its own extension, lower-cased |
| `Api.UploadExtensionAfterDot` | main.py:50 | otherwise the extension is the lower-cased text after the last dot |
| `Api.UploadFileIdRoundTrip` | main.py:64 | the upload's file id is the 14-character stamp, `_`, then the filename, and both parts can be read back |
| `Api.UploadFileIdInjective` | main.py:64 | two uploads share a file id exactly when they have the same stamp and filename |
| `Api.InputKey` | main.py:56 | the stored key is `input/` followed by the filename, which can be read back |
| `Api.UploadFile` | main.py:45-78 | a name whose extension is not allowed gets 400 `File type '<ext>' not supported.` and nothing is stored; an accepted one stores `input/{filename}` and then the PENDING record; a 400 happens only for such a name; an exception from the S3 upload (a refused upload) becomes 500 with its text and stores nothing, and one from `put_item` becomes 500 with its text and leaves the object stored |
| `Api.GifUploadRefused` | tests/test_main.py:55-63 | `test.gif` is refused with 400 naming `gif`, and the world is unchanged |
| `Api.ErrorText` | main.py:100 | an absent or NULL `error_message` reads as `None`, a string reads as itself |
| `Api.GetFileStatus` | main.py:80-103 | a missing item gives a 500 wrapping the 404; a missing `original_filename` or `created_at` gives 500 with the `KeyError` text; otherwise every field is the stored one, `converted_filename` and `error_message` mapped to `None` when absent or NULL and to the stored string otherwise |
| `Api.UploadThenStatus` | main.py:63-101 | right after an accepted upload, the lookup reports PENDING under the original filename, with no converted file and no error |
| `Api.RefusedUploadStoresNothing` | main.py:50-52 | a refused upload creates no record to look up, and the input object is present afterwards exactly when it was before |
| `Api.Count` | main.py:120-126 | a count never exceeds the number of items, and is zero exactly when no item matches |
| `Api.ScanOrderCoversTable` | main.py:112 | a scan that lists every key once returns as many items as the table holds |
| `Api.CountIsMatchingIndices` | main.py:120-126 | the count is the number of positions whose item matches the criterion |
| `Api.CountPermutation` | main.py:110-126 | counts do not depend on the order of the scanned items |
| `Api.StatusCountsPartition` | main.py:119-122 | the SUCCESS, FAILED, PENDING and PROCESSING counts add up to the total, so PROCESSING items appear only in the total |
| `Api.Statistics` | main.py:115-131 | the fold succeeds exactly when every item has `created_at`; then `total_files` is the item count, `successful`, `failed` and `pending` are the numbers of items whose status is exactly SUCCESS, FAILED and PENDING, and `last_24_hours` is the number created after `now - 24h`; otherwise 500 with the `KeyError` text |
| `Api.StatisticsPermutation` | main.py:110-131 | the statistics do not depend on the scan order |
| `Api.StatisticsExample` | tests/test_main.py:93-109 | items with statuses S, F, P, S give 4 / 2 / 1 / 1 |
| `Api.Scan` | main.py:110-115 | the scan returns one item per listed key, each the item stored under it |
| `Api.ScanFindsUnstamped` | main.py:110-115 | the scan misses no item: a scanned item lacks `created_at` exactly when some stored item does |
| `Api.GetFileStatistics` | main.py:105-131 | over the whole table the endpoint fails exactly when some item lacks `created_at`, and otherwise `total_files` is the number of items in the table |
| `Records.StatusNameRoundTrip` | main.py:120-122 | each status is stored as a string that reads back as that status, so the stats compare exact strings |
| `Pipeline.InputKeyCut` | main.py:56 | `splitext` cuts the upload's key inside the filename, never inside `input/` |
| `Pipeline.FileIdsNeverMatch` | main.py:64 | the Lambda's file id for an uploaded file is never the id the upload recorded |
| `Pipeline.RoutingMatchesUploadCheck` | lambda_app/convert_to_pdf.py:91-100 | the Lambda routes an uploaded file exactly when the upload's extension is allowed and `splitext` finds an extension at all |
| `Pipeline.RoutingWithExtension` | lambda_app/convert_to_pdf.py:91-100 | when `splitext` finds an extension in the uploaded key, the Lambda routes on the upload's extension with a dot, so it converts exactly the allowed types |
| `Pipeline.SupportedIffAllowed` | main.py:18 | the Lambda's two routing tables are the upload's allowed set with a leading dot |
| `Pipeline.DotlessNameDiverges` | main.py:50 | a dotless filename is its own upload extension, but the Lambda sees no extension and rejects it |
| `Pipeline.TxtDiverges` | main.py:50-51 | a file named `txt` is accepted by the upload and rejected by the Lambda |
| `Pipeline.UploadRecordStaysPending` | main.py:64-74 | after the upload's own event is processed, the upload's record still reads PENDING |
| `Pipeline.StampedNameCollides` | lambda_app/convert_to_pdf.py:87-91 | the Lambda's id for `{stamp}_{name}.{e}` (no `/` anywhere, no dot in `e`, a stamp not starting with a dot) is the id main.py:64 gives an upload of `name` under that stamp |
| `Pipeline.StampedNameLandsOnUpload` | lambda_app/convert_to_pdf.py:89-115 | the event for such a name, handled after the upload of `name`, leaves that upload's record SUCCESS or FAILED under its original name, so status lookup answers with it |
| `Pipeline.RecordOnExistingItem` | lambda_app/convert_to_pdf.py:16-31 | a record whose file id names an existing item ends it SUCCESS or FAILED and keeps its `original_filename` and `created_at` |
| `Pipeline.KeyKeepsUploadAttributes` | lambda_app/convert_to_pdf.py:19-30 | the Lambda's writes keep an existing item's `original_filename` and `created_at` |
| `PathText.SplitExtAtLastDot` | lambda_app/convert_to_pdf.py:91 | a name starting with a non-dot and ending in `.e` (no dot or `/` in `e`) is cut just before `.e` |
| `Pipeline.KeyKeepsFreshItem` | lambda_app/convert_to_pdf.py:16-31 | an item the Lambda creates lacks `original_filename` and `created_at` |
| `Pipeline.ConvertedUploadBreaksReads` | main.py:89-131 | after the Lambda handles an uploaded file, status lookup of its item and the statistics both answer 500 |
| `Pipeline.NoConvertedFilenameEver` | main.py:65-74 | starting from a table without `converted_filename`, an upload followed by any batch, with any outcomes and store faults, never produces one |

## Left out

- boto3 clients, environment variables and the region are not modelled. S3 and DynamoDB are the in-memory `World`, and the bucket is a parameter.
- PIL image re-encoding, the `/opt/bin/unoconv` subprocess and the downloads and uploads inside the converters are foreign calls. Each converter's outcome is a `bool` input, and a temp directory is not modelled.
- The subprocess has no timeout in the code, so a hung conversion is not modelled.
- `datetime` formatting and parsing are not modelled. Timestamps are integers, `now - 24h` is `now - 86400`, and the upload's stamp is an opaque 14-character string.
- Logging calls have no effect on state and are left out.
- `str(e)` of an exception is an input text. A `KeyError` renders as the quoted key, and that text is written as given.
- Lower-casing covers ASCII letters only; other characters are kept as they are.
- `get_item` and `scan` raising inside the `try` are left out. The code turns them into a 500 with the exception text, as it does for the modelled errors.
- The scan's projection expression is not interpreted, and whether the store accepts it is not modelled. The model's scan returns every item in one page, although the code reads only the first page of a paginated scan.
- A `file.filename` of `None` is left out; the model's filename is always a string.
- FastAPI routing, pydantic response models, CORS middleware and the uvicorn entry point are framework plumbing with no logic of their own.
- Object contents are not modelled: S3 is the set of stored keys per bucket.
- ConvertToPdf.Attempt: a raising `update_item` is modelled as a write the store refused, so the table is unchanged and `applied` is false. A call that the store applied and that still raised (a read timeout, retries exhausted, or DynamoDB's `InternalServerError`) is not represented, and `LambdaProperties.KeyStuckInProcessing` holds only for refused writes.
- Api.UploadFile: a raising `upload_fileobj` or `put_item` is modelled as refused, so nothing of that step is stored; an S3 upload or a `put_item` that took effect and still raised is not represented.
- ConvertToPdf.Convert: each converter builds its `boto3` client before its `try` (lines 37 and 62). A raise there is not caught by the converter; it reaches the handler's `except`, which writes FAILED with that exception's text rather than `Conversion failed`. The model's converter outcome is only a boolean, so this path is not represented.
- ConvertToPdf.LambdaHandler: the `s3` client the handler builds at line 82 is never used, but it sits outside every `try`, so a raise while building it escapes the handler; the model does not represent that raise.
- Api.GetFileStatus: the 500 that wraps the 404 keeps the inner error as a structure (`Wrapped`), where the code passes `str(e)` of the `HTTPException` as the detail; the rendered text depends on the framework's `__str__`.
- Api.GetFileStatistics: the scan's projection `status, created_at` names `status`, a DynamoDB reserved word, without the `#status` placeholder the Lambda uses; the model's scan accepts any projection, so its contract describes a store that accepts this one, while DynamoDB rejects it and the endpoint would answer 500 for every table.
- Pipeline.EventOfUpload: the event's object key is taken to equal the stored key `input/{filename}`. S3 notifications deliver the key URL-encoded (a space arrives as `+`), and the Lambda uses it without decoding, so the Pipeline lemmas cover exactly the filenames that URL-encoding leaves unchanged; for other names the Lambda's download key and file id differ from the upload's.
- Api.Statistics: uses one clock reading `now` for every item, where the code reads `datetime.now()` afresh for each scanned item; the readings differ by the loop's running time only.

=== FILE: api.dfy ===
/** The HTTP API (`main.py`): the upload check and record creation, the
    status lookup and the statistics fold. The store clients and the clock
    are inputs; so are the store's failures. */
module Api {
  import opened Wrappers
  import opened PathText
  import opened Records

  // ---------------------------------------------------------------------
  // Responses

  /** An `HTTPException` detail: a message, or (when the broad `except`
      catches an `HTTPException` raised inside the `try`) the exception it
      wraps. */
  datatype Detail = Message(text: string) | Wrapped(inner: HttpError)

  datatype HttpError = HttpError(statusCode: int, detail: Detail)

  // ---------------------------------------------------------------------
  // upload_file

  const AllowedExtensions: set<string> := {"png", "jpg", "jpeg", "doc", "docx", "xls", "xlsx", "txt"}

  /** `filename.split('.')[-1].lower()`: the text after the last dot,
      lower-cased, or the whole name lower-cased when it has no dot. */
  function UploadExtension(filename: string): (ext: string)
    ensures |ext| <= |filename|
  {
    Lower(filename[LastIndexOf(filename, '.') + 1..])
  }

  /** The extension holds no dot, is the lower-cased end of the filename, and
      is either the whole name or preceded by a dot. */
  lemma UploadExtensionShape(filename: string)
    ensures var ext := UploadExtension(filename);
            && '.' !in ext
            && ext == Lower(filename[|filename| - |ext|..])
            && (|ext| < |filename| ==> filename[|filename| - |ext| - 1] == '.')
  {
    var r := LastIndexOf(filename, '.');
    var tail := filename[r + 1..];
    var ext := Lower(tail);
    assert ext == UploadExtension(filename);
    assert |ext| == |filename| - (r + 1);
    assert filename[|filename| - |ext|..] == tail;
    LastIndexOfIsLast(filename, '.');
    forall i | 0 <= i < |tail| ensures ext[i] != '.' {
      assert tail[i] == filename[r + 1 + i];
    }
    if |ext| < |filename| {
      assert r >= 0 && filename[|filename| - |ext| - 1] == filename[r];
    }
  }

  /** A name without a dot is its own extension. */
  lemma UploadExtensionNoDot(filename: string)
    requires '.' !in filename
    ensures UploadExtension(filename) == Lower(filename)
  {
    var r := LastIndexOf(filename, '.');
    assert r == -1;
    assert filename[0..] == filename;
  }

  /** Otherwise it is the part after the last dot, whatever precedes it. */
  lemma UploadExtensionAfterDot(stem: string, ext: string)
    requires '.' !in ext
    ensures UploadExtension(stem + "." + ext) == Lower(ext)
  {
    assert stem + "." + ext == stem + ['.'] + ext;
    LastIndexOfAfter(stem, '.', ext);
    assert (stem + "." + ext)[|stem| + 1..] == ext;
  }

  /** The key an accepted upload stores its file under. */
  function InputKey(filename: string): (key: string)
    ensures |key| == |filename| + 6
    ensures key[..6] == "input/" && key[6..] == filename
  {
    "input/" + filename
  }

  /** `f"{datetime.now().strftime('%Y%m%d%H%M%S')}_{file.filename}"`; the
      stamp is the 14-character text of the clock reading. */
  function UploadFileId(stamp: string, filename: string): (fileId: string)
  {
    stamp + "_" + filename
  }

  /** The stamp and the filename can be read back from the id, so two uploads
      share an id only when they have the same name in the same second. */
  lemma UploadFileIdRoundTrip(stamp: string, filename: string)
    requires |stamp| == 14
    ensures UploadFileId(stamp, filename)[..14] == stamp
    ensures UploadFileId(stamp, filename)[14] == '_'
    ensures UploadFileId(stamp, filename)[15..] == filename
  {
  }

  lemma UploadFileIdInjective(s1: string, f1: string, s2: string, f2: string)
    requires |s1| == 14 && |s2| == 14
    ensures UploadFileId(s1, f1) == UploadFileId(s2, f2) <==> s1 == s2 && f1 == f2
  {
    if UploadFileId(s1, f1) == UploadFileId(s2, f2) {
      UploadFileIdRoundTrip(s1, f1);
      UploadFileIdRoundTrip(s2, f2);
    }
  }

  /** The item `put_item` stores: PENDING, with the original name and both
      timestamps, and neither `converted_filename` nor `error_message`. */
  function NewRecord(filename: string, createdAt: int, updatedAt: int): (item: Item)
  {
    Item(Some(filename), Pending, None, Some(createdAt), updatedAt, Absent)
  }

  /** The JSON body of a successful upload. */
  datatype Uploaded = Uploaded(fileId: string, status: string)

  datatype UploadOutcome = UploadOutcome(world: World, response: Result<Uploaded, HttpError>)

  /** The clock readings and store answers an upload sees: the stamp of the
      id, the two `isoformat` readings, and the text of the exception S3's
      `upload_fileobj` or DynamoDB's `put_item` raises, if any. */
  datatype UploadEnv = UploadEnv(stamp: string, createdAt: int, updatedAt: int, storeFault: Option<string>, tableFault: Option<string>)

  /** `upload_file`. A name whose extension is not allowed is refused with 400
      before any store call. Otherwise the object `input/{filename}` is
      stored, then the PENDING record under the stamped id (overwriting any
      item with that id); an exception in either step becomes a 500 carrying
      its text, and a failing `put_item` leaves the object stored. */
  function UploadFile(w: World, bucket: string, filename: string, env: UploadEnv): (r: UploadOutcome)
    requires |env.stamp| == 14
    ensures UploadExtension(filename) !in AllowedExtensions ==>
              && r.world == w
              && r.response == Err(HttpError(400, Message("File type '" + UploadExtension(filename) + "' not supported.")))
    ensures r.response.Ok? <==>
              UploadExtension(filename) in AllowedExtensions && env.storeFault.None? && env.tableFault.None?
    ensures r.response.Ok? ==> r.response.value == Uploaded(UploadFileId(env.stamp, filename), "uploaded")
    ensures r.response.Ok? ==>
              r.world == World(w.table[UploadFileId(env.stamp, filename) := NewRecord(filename, env.createdAt, env.updatedAt)],
                               w.objects + {ObjectRef(bucket, InputKey(filename))})
    ensures r.response.Err? && r.response.error.statusCode != 400 ==>
              && r.response.error.statusCode == 500
              && r.world.table == w.table
              && (env.storeFault.Some? ==> r.world == w)
    ensures r.response.Err? && r.response.error.statusCode == 400 ==> UploadExtension(filename) !in AllowedExtensions
    ensures UploadExtension(filename) in AllowedExtensions && env.storeFault.Some? ==>
              r == UploadOutcome(w, Err(HttpError(500, Message(env.storeFault.value))))
    ensures UploadExtension(filename) in AllowedExtensions && env.storeFault.None? && env.tableFault.Some? ==>
              r == UploadOutcome(World(w.table, w.objects + {ObjectRef(bucket, InputKey(filename))}),
                                 Err(HttpError(500, Message(env.tableFault.value))))
    ensures r.world.objects == w.objects || r.world.objects == w.objects + {ObjectRef(bucket, InputKey(filename))}
    ensures r.world.table == w.table || r.world.table == w.table[UploadFileId(env.stamp, filename) := NewRecord(filename, env.createdAt, env.updatedAt)]
  {
    var ext := UploadExtension(filename);
    if ext !in AllowedExtensions then
      UploadOutcome(w, Err(HttpError(400, Message("File type '" + ext + "' not supported."))))
    else if env.storeFault.Some? then
      UploadOutcome(w, Err(HttpError(500, Message(env.storeFault.value))))
    else
      var stored := w.objects + {ObjectRef(bucket, InputKey(filename))};
      if env.tableFault.Some? then
        UploadOutcome(World(w.table, stored), Err(HttpError(500, Message(env.tableFault.value))))
      else
        var fileId := UploadFileId(env.stamp, filename);
        UploadOutcome(World(w.table[fileId := NewRecord(filename, env.createdAt, env.updatedAt)], stored),
                      Ok(Uploaded(fileId, "uploaded")))
  }

  /** The unsupported-type test: `test.gif` is refused with 400 naming `gif`,
      and nothing is stored. */
  lemma GifUploadRefused(w: World, bucket: string, env: UploadEnv)
    requires |env.stamp| == 14
    ensures UploadFile(w, bucket, "test.gif", env)
            == UploadOutcome(w, Err(HttpError(400, Message("File type 'gif' not supported."))))
  {
    GifExtension();
    assert "gif" !in AllowedExtensions;
    assert "File type '" + "gif" + "' not supported." == "File type 'gif' not supported.";
  }

  /** The extension the upload reads from `test.gif`. */
  lemma GifExtension()
    ensures UploadExtension("test.gif") == "gif"
  {
    assert "test.gif" == "test" + "." + "gif";
    UploadExtensionAfterDot("test", "gif");
    LowerKeeps("gif");
  }

  // ---------------------------------------------------------------------
  // get_file_status

  /** The `FileStatus` response model. */
  datatype FileStatus = FileStatus(
    fileId: string,
    originalFilename: string,
    status: string,
    convertedFilename: Option<string>,
    createdAt: int,
    updatedAt: int,
    errorMessage: Option<string>)

  /** `item.get('error_message', {}).get('S')`: a missing attribute and a
      NULL one both read as `None`. */
  function ErrorText(e: ErrorAttr): (r: Option<string>)
    ensures r.Some? <==> e.Text?
    ensures r.Some? ==> r.value == e.text
  {
    match e
    case Text(text) => Some(text)
    case _ => None
  }

  /** `get_file_status`. A missing item raises 404 inside the `try`, which the
      broad `except` turns into a 500 wrapping it. A missing required
      attribute raises `KeyError`, rendered as the quoted attribute name;
      `original_filename` is read before `created_at`. */
  function GetFileStatus(t: Table, fileId: string): (r: Result<FileStatus, HttpError>)
    ensures r.Ok? <==> fileId in t && t[fileId].originalFilename.Some? && t[fileId].createdAt.Some?
    ensures fileId !in t ==> r == Err(HttpError(500, Wrapped(HttpError(404, Message("File not found")))))
    ensures fileId in t && t[fileId].originalFilename.None? ==> r == Err(HttpError(500, Message("'original_filename'")))
    ensures fileId in t && t[fileId].originalFilename.Some? && t[fileId].createdAt.None? ==>
              r == Err(HttpError(500, Message("'created_at'")))
    ensures r.Ok? ==>
              && r.value.fileId == fileId
              && Some(r.value.originalFilename) == t[fileId].originalFilename
              && StatusOf(r.value.status) == Some(t[fileId].status)
              && r.value.convertedFilename == t[fileId].convertedFilename
              && Some(r.value.createdAt) == t[fileId].createdAt
              && r.value.updatedAt == t[fileId].updatedAt
              && (r.value.errorMessage.Some? <==> t[fileId].errorMessage.Text?)
              && (t[fileId].errorMessage.Text? ==> r.value.errorMessage == Some(t[fileId].errorMessage.text))
  {
    if fileId !in t then Err(HttpError(500, Wrapped(HttpError(404, Message("File not found")))))
    else
      var item := t[fileId];
      if item.originalFilename.None? then Err(HttpError(500, Message("'original_filename'")))
      else if item.createdAt.None? then Err(HttpError(500, Message("'created_at'")))
      else
        StatusNameRoundTrip(item.status);
        Ok(FileStatus(fileId, item.originalFilename.value, StatusName(item.status), item.convertedFilename,
                      item.createdAt.value, item.updatedAt, ErrorText(item.errorMessage)))
  }

  /** A successful upload can be looked up at once: PENDING, under its own
      name, with no converted file and no error. */
  lemma UploadThenStatus(w: World, bucket: string, filename: string, env: UploadEnv)
    requires |env.stamp| == 14
    requires UploadFile(w, bucket, filename, env).response.Ok?
    ensures var id := UploadFile(w, bucket, filename, env).response.value.fileId;
            GetFileStatus(UploadFile(w, bucket, filename, env).world.table, id)
            == Ok(FileStatus(id, filename, "PENDING", None, env.createdAt, env.updatedAt, None))
  {
  }

  /** A refused upload leaves nothing to look up. */
  lemma RefusedUploadStoresNothing(w: World, bucket: string, filename: string, env: UploadEnv)
    requires |env.stamp| == 14
    requires UploadExtension(filename) !in AllowedExtensions
    requires UploadFileId(env.stamp, filename) !in w.table
    ensures GetFileStatus(UploadFile(w, bucket, filename, env).world.table, UploadFileId(env.stamp, filename)).Err?
    ensures ObjectRef(bucket, InputKey(filename)) in UploadFile(w, bucket, filename, env).world.objects
            <==> ObjectRef(bucket, InputKey(filename)) in w.objects
  {
  }

  // ---------------------------------------------------------------------
  // get_file_statistics

  /** What one of the `sum(1 for item in items if ...)` generators counts. */
  datatype Criterion = StatusIs(status: Status) | CreatedAfter(since: int)

  predicate Matches(item: Item, c: Criterion)
  {
    match c
    case StatusIs(s) => item.status == s
    case CreatedAfter(since) => item.createdAt.Some? && item.createdAt.value > since
  }

  /** The counting fold over the scanned items. */
  function Count(items: seq<Item>, c: Criterion): (n: nat)
    ensures n <= |items|
    ensures n == 0 <==> forall i :: 0 <= i < |items| ==> !Matches(items[i], c)
  {
    if |items| == 0 then 0
    else (if Matches(items[0], c) then 1 else 0) + Count(items[1..], c)
  }

  lemma {:induction false} CountConcat(a: seq<Item>, b: seq<Item>, c: Criterion)
    ensures Count(a + b, c) == Count(a, c) + Count(b, c)
  {
    if |a| == 0 {
      assert a + b == b;
    } else {
      assert (a + b)[0] == a[0];
      assert (a + b)[1..] == a[1..] + b;
      CountConcat(a[1..], b, c);
    }
  }

  /** The counts do not depend on the order the scan returns items in. */
  lemma {:induction false} CountPermutation(a: seq<Item>, b: seq<Item>, c: Criterion)
    requires multiset(a) == multiset(b)
    ensures Count(a, c) == Count(b, c)
    decreases |a|
  {
    if |a| > 0 {
      var x := a[0];
      assert x in multiset(b);
      var j :| 0 <= j < |b| && b[j] == x;
      var left, right := b[..j], b[j + 1..];
      assert b == left + [x] + right;
      assert a == [x] + a[1..];
      MultisetRemove(a[1..], left, x, right, multiset(a));
      CountPermutation(a[1..], left + right, c);
      CountConcat(left + [x], right, c);
      CountConcat(left, [x], c);
      CountConcat(left, right, c);
      assert Count([x], c) == (if Matches(x, c) then 1 else 0) by {
        assert [x][1..] == [];
      }
    }
  }

  /** Taking the same element out of two equal multisets. */
  lemma MultisetRemove(rest: seq<Item>, left: seq<Item>, x: Item, right: seq<Item>, m: multiset<Item>)
    requires m == multiset([x] + rest)
    requires m == multiset(left + [x] + right)
    ensures multiset(rest) == multiset(left + right)
  {
    assert multiset([x] + rest) == multiset{x} + multiset(rest);
    assert multiset(left + [x] + right) == multiset(left) + multiset{x} + multiset(right);
    assert multiset(left + right) == multiset(left) + multiset(right);
    forall y ensures multiset(rest)[y] == multiset(left + right)[y] {
      assert m[y] == multiset{x}[y] + multiset(rest)[y];
      assert m[y] == multiset(left)[y] + multiset{x}[y] + multiset(right)[y];
    }
  }

  /** The indices of the items a criterion matches. */
  function MatchingIndices(items: seq<Item>, c: Criterion): set<nat>
  {
    set i: nat | i < |items| && Matches(items[i], c)
  }

  /** Independent reading of the fold: it counts the matching positions. */
  lemma {:induction false} CountIsMatchingIndices(items: seq<Item>, c: Criterion)
    ensures Count(items, c) == |MatchingIndices(items, c)|
    decreases |items|
  {
    if |items| > 0 {
      var n := |items| - 1;
      var init := items[..n];
      assert items == init + [items[n]];
      CountIsMatchingIndices(init, c);
      CountConcat(init, [items[n]], c);
      assert Count([items[n]], c) == (if Matches(items[n], c) then 1 else 0) by {
        assert [items[n]][1..] == [];
      }
      MatchingIndicesSnoc(items, c);
    }
  }

  /** Appending an item adds its position exactly when it matches. */
  lemma MatchingIndicesSnoc(items: seq<Item>, c: Criterion)
    requires |items| > 0
    ensures |MatchingIndices(items, c)|
            == |MatchingIndices(items[..|items| - 1], c)| + (if Matches(items[|items| - 1], c) then 1 else 0)
  {
    var n := |items| - 1;
    var init := items[..n];
    var before := MatchingIndices(init, c);
    var extra: set<nat> := if Matches(items[n], c) then {n} else {};
    forall i: nat ensures i in MatchingIndices(items, c) <==> i in before + extra {
      if i < n {
        assert init[i] == items[i];
      }
    }
    assert MatchingIndices(items, c) == before + extra;
    assert n !in before;
  }

  /** The statuses are disjoint, so every item is counted by exactly one
      status; PROCESSING items appear only in the total. */
  lemma {:induction false} StatusCountsPartition(items: seq<Item>)
    ensures Count(items, StatusIs(Success)) + Count(items, StatusIs(Failed))
            + Count(items, StatusIs(Pending)) + Count(items, StatusIs(Processing)) == |items|
  {
    if |items| > 0 {
      StatusCountsPartition(items[1..]);
    }
  }

  datatype FileStats = FileStats(total: nat, successful: nat, failed: nat, pending: nat, last24Hours: nat)

  /** The fold over a scan's items at clock reading `now` (seconds). Items
      without `created_at` make the `last_24_hours` generator raise
      `KeyError`, which becomes a 500. */
  function Statistics(items: seq<Item>, now: int): (r: Result<FileStats, HttpError>)
    ensures r.Ok? <==> forall i :: 0 <= i < |items| ==> items[i].createdAt.Some?
    ensures r.Err? ==> r.error == HttpError(500, Message("'created_at'"))
    ensures r.Ok? ==> r.value.successful + r.value.failed + r.value.pending <= r.value.total == |items|
    ensures r.Ok? ==> r.value.last24Hours <= r.value.total
    ensures r.Ok? ==> r.value.successful == |MatchingIndices(items, StatusIs(Success))|
    ensures r.Ok? ==> r.value.failed == |MatchingIndices(items, StatusIs(Failed))|
    ensures r.Ok? ==> r.value.pending == |MatchingIndices(items, StatusIs(Pending))|
    ensures r.Ok? ==> r.value.last24Hours == |MatchingIndices(items, CreatedAfter(now - 86400))|
  {
    if forall i :: 0 <= i < |items| ==> items[i].createdAt.Some? then
      StatusCountsPartition(items);
      CountIsMatchingIndices(items, StatusIs(Success));
      CountIsMatchingIndices(items, StatusIs(Failed));
      CountIsMatchingIndices(items, StatusIs(Pending));
      CountIsMatchingIndices(items, CreatedAfter(now - 86400));
      Ok(FileStats(|items|, Count(items, StatusIs(Success)), Count(items, StatusIs(Failed)),
                   Count(items, StatusIs(Pending)), Count(items, CreatedAfter(now - 86400))))
    else Err(HttpError(500, Message("'created_at'")))
  }

  /** The statistics do not depend on the scan order. */
  lemma StatisticsPermutation(a: seq<Item>, b: seq<Item>, now: int)
    requires multiset(a) == multiset(b)
    ensures Statistics(a, now) == Statistics(b, now)
  {
    CountPermutation(a, b, StatusIs(Success));
    CountPermutation(a, b, StatusIs(Failed));
    CountPermutation(a, b, StatusIs(Pending));
    CountPermutation(a, b, CreatedAfter(now - 86400));
    assert |a| == |multiset(a)| == |b|;
    forall i | 0 <= i < |a| && a[i].createdAt.None?
      ensures exists j :: 0 <= j < |b| && b[j].createdAt.None?
    {
      assert a[i] in multiset(b);
    }
    forall j | 0 <= j < |b| && b[j].createdAt.None?
      ensures exists i :: 0 <= i < |a| && a[i].createdAt.None?
    {
      assert b[j] in multiset(a);
    }
  }

  /** The four items of the statistics test, S, F, P, S, give 4/2/1/1. */
  lemma StatisticsExample(c1: int, c2: int, c3: int, c4: int, u: int, now: int)
    ensures var items := [Item(None, Success, None, Some(c1), u, Absent),
                          Item(None, Failed, None, Some(c2), u, Absent),
                          Item(None, Pending, None, Some(c3), u, Absent),
                          Item(None, Success, None, Some(c4), u, Absent)];
            var r := Statistics(items, now);
            r.Ok? && r.value.total == 4 && r.value.successful == 2 && r.value.failed == 1 && r.value.pending == 1
  {
    var items := [Item(None, Success, None, Some(c1), u, Absent),
                  Item(None, Failed, None, Some(c2), u, Absent),
                  Item(None, Pending, None, Some(c3), u, Absent),
                  Item(None, Success, None, Some(c4), u, Absent)];
    var s, f, p := StatusIs(Success), StatusIs(Failed), StatusIs(Pending);
    assert items[3..][1..] == [];
    assert items[2..][1..] == items[3..] && items[1..][1..] == items[2..];
    assert Count(items[3..], s) == 1 && Count(items[3..], f) == 0 && Count(items[3..], p) == 0;
    assert Count(items[2..], s) == 1 && Count(items[2..], f) == 0 && Count(items[2..], p) == 1;
    assert Count(items[1..], s) == 1 && Count(items[1..], f) == 1 && Count(items[1..], p) == 1;
  }

  /** `scan`: the table's items in some order the store chooses; `order`
      lists every key exactly once. */
  predicate IsScanOrder(t: Table, order: seq<string>)
  {
    && (forall k :: k in t ==> k in order)
    && (forall i :: 0 <= i < |order| ==> order[i] in t)
    && (forall i, j :: 0 <= i < j < |order| ==> order[i] != order[j])
  }

  function Scan(t: Table, order: seq<string>): (items: seq<Item>)
    requires forall k :: k in order ==> k in t
    ensures |items| == |order|
    ensures forall i :: 0 <= i < |order| ==> items[i] == t[order[i]]
  {
    if |order| == 0 then [] else [t[order[0]]] + Scan(t, order[1..])
  }

  /** A scan misses no item: some scanned item lacks `created_at` exactly
      when some item of the table does. */
  lemma ScanFindsUnstamped(t: Table, order: seq<string>)
    requires IsScanOrder(t, order)
    ensures (exists i :: 0 <= i < |order| && Scan(t, order)[i].createdAt.None?)
            <==> exists k :: k in t && t[k].createdAt.None?
  {
    var items := Scan(t, order);
    if exists i :: 0 <= i < |order| && items[i].createdAt.None? {
      var i :| 0 <= i < |order| && items[i].createdAt.None?;
      assert order[i] in t && t[order[i]].createdAt.None?;
    }
    if exists k :: k in t && t[k].createdAt.None? {
      var k :| k in t && t[k].createdAt.None?;
      var i :| 0 <= i < |order| && order[i] == k;
      assert items[i] == t[k];
      assert 0 <= i < |order| && Scan(t, order)[i].createdAt.None?;
    }
  }

  /** A scan order lists each key of the table exactly once, so it is as
      long as the table. */
  lemma {:induction false} ScanOrderCoversTable(t: Table, order: seq<string>)
    requires IsScanOrder(t, order)
    ensures |order| == |t|
  {
    DistinctListing(t.Keys, order);
  }

  /** A duplicate-free listing of a set is as long as the set. */
  lemma {:induction false} DistinctListing(keys: set<string>, order: seq<string>)
    requires forall k :: k in keys <==> k in order
    requires forall i, j :: 0 <= i < j < |order| ==> order[i] != order[j]
    ensures |keys| == |order|
    decreases |order|
  {
    if |order| > 0 {
      var n := |order| - 1;
      var init := order[..n];
      assert order == init + [order[n]];
      forall k ensures k in keys - {order[n]} <==> k in init {
        if k in init {
          var i :| 0 <= i < n && init[i] == k;
          assert order[i] == k;
        }
      }
      DistinctListing(keys - {order[n]}, init);
    }
  }

  /** `get_file_statistics` on the table, read in the store's order. */
  function GetFileStatistics(t: Table, order: seq<string>, now: int): (r: Result<FileStats, HttpError>)
    requires IsScanOrder(t, order)
    ensures r.Err? <==> exists k :: k in t && t[k].createdAt.None?
    ensures r.Ok? ==> r.value.total == |t|
  {
    ScanFindsUnstamped(t, order);
    ScanOrderCoversTable(t, order);
    Statistics(Scan(t, order), now)
  }
}

=== FILE: batch.dfy ===
/** The shape of `lambda_handler`'s loop, independent of what one record
    does: a state threaded through the records in order, and a log of what
    each record attempted, concatenated. */
module Batch {

  function Run<S, R, E, L>(s: S, rs: seq<R>, es: seq<E>, step: (S, R, E) -> (S, seq<L>)): (r: (S, seq<L>))
    requires |rs| == |es|
    decreases |rs|
  {
    if |rs| == 0 then (s, [])
    else
      var first := step(s, rs[0], es[0]);
      var rest := Run(first.0, rs[1..], es[1..], step);
      (rest.0, first.1 + rest.1)
  }

  /** Running a batch is running its first part, then the rest on the result. */
  lemma {:induction false} RunConcat<S, R, E, L>(s: S, r1: seq<R>, e1: seq<E>, r2: seq<R>, e2: seq<E>, step: (S, R, E) -> (S, seq<L>))
    requires |r1| == |e1| && |r2| == |e2|
    ensures var a := Run(s, r1, e1, step);
            var b := Run(a.0, r2, e2, step);
            Run(s, r1 + r2, e1 + e2, step) == (b.0, a.1 + b.1)
    decreases |r1|
  {
    if |r1| == 0 {
      assert r1 + r2 == r2 && e1 + e2 == e2;
      assert Run(s, r1, e1, step) == (s, []);
      var b := Run(s, r2, e2, step);
      assert [] + b.1 == b.1;
    } else {
      var first := step(s, r1[0], e1[0]);
      assert (r1 + r2)[0] == r1[0] && (e1 + e2)[0] == e1[0];
      assert (r1 + r2)[1..] == r1[1..] + r2 && (e1 + e2)[1..] == e1[1..] + e2;
      RunConcat(first.0, r1[1..], e1[1..], r2, e2, step);
      var a' := Run(first.0, r1[1..], e1[1..], step);
      var b := Run(a'.0, r2, e2, step);
      assert Run(s, r1, e1, step) == (a'.0, first.1 + a'.1);
      assert Run(s, r1 + r2, e1 + e2, step) == (b.0, first.1 + (a'.1 + b.1));
      assert first.1 + (a'.1 + b.1) == (first.1 + a'.1) + b.1;
    }
  }

  /** The state after a batch is the state the records after position `i`
      leave, starting from what record `i` left. */
  lemma RunAt<S, R, E, L>(s: S, rs: seq<R>, es: seq<E>, step: (S, R, E) -> (S, seq<L>), i: nat)
    requires |rs| == |es| && i < |rs|
    ensures var before := Run(s, rs[..i], es[..i], step).0;
            Run(s, rs, es, step).0 == Run(step(before, rs[i], es[i]).0, rs[i + 1..], es[i + 1..], step).0
  {
    var before := Run(s, rs[..i], es[..i], step).0;
    var tail, etail := rs[i + 1..], es[i + 1..];
    assert rs == rs[..i] + ([rs[i]] + tail);
    assert es == es[..i] + ([es[i]] + etail);
    RunConcat(s, rs[..i], es[..i], [rs[i]] + tail, [es[i]] + etail, step);
    RunConcat(before, [rs[i]], [es[i]], tail, etail, step);
    assert Run(before, [rs[i]], [es[i]], step).0 == step(before, rs[i], es[i]).0 by {
      assert [rs[i]][1..] == [] && [es[i]][1..] == [];
    }
  }

  /** When no record's log depends on the state, neither does the batch's. */
  lemma {:induction false} RunLogIgnoresState<S, R, E, L>(s1: S, s2: S, rs: seq<R>, es: seq<E>, step: (S, R, E) -> (S, seq<L>))
    requires |rs| == |es|
    requires forall a: S, b: S, r: R, e: E :: step(a, r, e).1 == step(b, r, e).1
    ensures Run(s1, rs, es, step).1 == Run(s2, rs, es, step).1
    decreases |rs|
  {
    if |rs| > 0 {
      RunLogIgnoresState(step(s1, rs[0], es[0]).0, step(s2, rs[0], es[0]).0, rs[1..], es[1..], step);
      assert step(s1, rs[0], es[0]).1 == step(s2, rs[0], es[0]).1;
    }
  }

  /** A state property every admissible record preserves holds after the batch. */
  lemma {:induction false} RunPreserves<S, R, E, L>(s: S, rs: seq<R>, es: seq<E>, step: (S, R, E) -> (S, seq<L>), inv: S -> bool, admissible: (R, E) -> bool)
    requires |rs| == |es|
    requires forall i :: 0 <= i < |rs| ==> admissible(rs[i], es[i])
    requires forall a: S, r: R, e: E :: inv(a) && admissible(r, e) ==> inv(step(a, r, e).0)
    requires inv(s)
    ensures inv(Run(s, rs, es, step).0)
    decreases |rs|
  {
    if |rs| > 0 {
      assert admissible(rs[0], es[0]);
      forall i | 0 <= i < |rs[1..]|
        ensures admissible(rs[1..][i], es[1..][i])
      {
        assert admissible(rs[i + 1], es[i + 1]);
      }
      RunPreserves(step(s, rs[0], es[0]).0, rs[1..], es[1..], step, inv, admissible);
    }
  }
}

=== FILE: convert_to_pdf.dfy ===
/** The conversion Lambda (`lambda_app/convert_to_pdf.py`): status writes,
    key derivation, extension routing, the two converters and the per-record
    loop of `lambda_handler`. The store clients, the clock, the converters'
    inner work and the store's failures are inputs. */
module ConvertToPdf {
  import opened Wrappers
  import opened PathText
  import opened Records
  import opened Batch

  // ---------------------------------------------------------------------
  // update_dynamodb_status

  /** The `error_message` value a status write stores: the text when it is
      non-empty, otherwise DynamoDB NULL (`None` and "" are both falsy). */
  function ErrorValue(message: string): (e: ErrorAttr)
    ensures e != Absent
    ensures e.Text? <==> message != ""
    ensures e.Text? ==> e.text == message
  {
    if message == "" then Null else Text(message)
  }

  /** An `update_item` that SETs status, updated_at and error_message. It is an
      upsert: a missing `file_id` gets a new item holding only those three
      attributes; an existing item keeps all its other attributes. */
  function WriteStatus(t: Table, fileId: string, status: Status, message: string, now: int): (t': Table)
    ensures fileId in t'
    ensures t' - {fileId} == t - {fileId}
    ensures t'[fileId].status == status && t'[fileId].updatedAt == now
    ensures t'[fileId].errorMessage == ErrorValue(message)
    ensures fileId in t ==>
              && t'[fileId].originalFilename == t[fileId].originalFilename
              && t'[fileId].createdAt == t[fileId].createdAt
              && t'[fileId].convertedFilename == t[fileId].convertedFilename
    ensures fileId !in t ==>
              t'[fileId].originalFilename.None? && t'[fileId].createdAt.None? && t'[fileId].convertedFilename.None?
  {
    var item :=
      if fileId in t then t[fileId].(status := status, updatedAt := now, errorMessage := ErrorValue(message))
      else Item(None, status, None, None, now, ErrorValue(message));
    t[fileId := item]
  }

  /** A second write to the same item overwrites everything the first one set. */
  lemma WriteStatusOverwrites(t: Table, fileId: string, s1: Status, m1: string, n1: int, s2: Status, m2: string, n2: int)
    ensures WriteStatus(WriteStatus(t, fileId, s1, m1, n1), fileId, s2, m2, n2) == WriteStatus(t, fileId, s2, m2, n2)
  {
  }

  // ---------------------------------------------------------------------
  // Key derivation and routing

  /** `os.path.splitext(os.path.basename(key))[0]`: the last path component
      with exactly the (raw-case) extension `splitext` finds removed. */
  function FileIdOf(key: string): (id: string)
    ensures id + SplitExt(key).1 == Basename(key)
    ensures '/' !in id
  {
    ExtOfBasename(key);
    BasenameHasNoSeparator(key);
    var b := Basename(key);
    assert forall i :: 0 <= i < |SplitExt(b).0| ==> SplitExt(b).0[i] == b[i];
    SplitExt(b).0
  }

  /** `os.path.splitext(key)[1].lower()`: empty, or a dot followed by
      characters that are neither '.' nor '/', as long as the raw extension. */
  function ExtensionOf(key: string): (ext: string)
    ensures |ext| == |SplitExt(key).1|
    ensures ext != [] ==> ext[0] == '.'
    ensures forall i :: 0 < i < |ext| ==> ext[i] != '.' && ext[i] != '/'
  {
    SplitExtShape(key);
    Lower(SplitExt(key).1)
  }

  /** The routing extension is the same for keys that differ only in letter case. */
  lemma {:induction false} ExtensionCaseInsensitive(k1: string, k2: string)
    requires Lower(k1) == Lower(k2)
    ensures ExtensionOf(k1) == ExtensionOf(k2)
  {
    SplitExtLower(k1);
    SplitExtLower(k2);
    LowerIdempotent(SplitExt(k1).1);
    LowerIdempotent(SplitExt(k2).1);
  }

  /** Where `splitext` cuts `dir/stem.e` when the stem is not all dots. */
  lemma {:induction false} SimpleKeyCut(dir: string, stem: string, e: string)
    requires '/' !in stem && !AllDots(stem)
    requires '.' !in e && '/' !in e
    ensures ExtStart(dir + "/" + stem + "." + e) == |dir| + 1 + |stem|
  {
    var p := dir + "/" + stem + "." + e;
    assert p == dir + ['/'] + (stem + "." + e);
    assert '/' !in stem + "." + e;
    LastIndexOfAfter(dir, '/', stem + "." + e);
    assert p == (dir + "/" + stem) + ['.'] + e;
    LastIndexOfAfter(dir + "/" + stem, '.', e);
    assert p[|dir| + 1..|dir| + 1 + |stem|] == stem;
  }

  lemma BasenameAfterDir(dir: string, rest: string)
    requires '/' !in rest
    ensures Basename(dir + "/" + rest) == rest
  {
    assert dir + "/" + rest == dir + ['/'] + rest;
    LastIndexOfAfter(dir, '/', rest);
    assert (dir + "/" + rest)[|dir| + 1..] == rest;
  }

  /** The raw extension `splitext` finds in `dir/stem.e`. */
  lemma {:induction false} SimpleKeyRawExtension(dir: string, stem: string, e: string)
    requires '/' !in stem && !AllDots(stem)
    requires '.' !in e && '/' !in e
    ensures SplitExt(dir + "/" + stem + "." + e).1 == "." + e
  {
    var p := dir + "/" + stem + "." + e;
    SimpleKeyCut(dir, stem, e);
    assert p == (dir + "/" + stem) + ("." + e);
  }

  /** A name made of a stem and an extension without '/' holds no '/'. */
  lemma NoSeparatorIn(stem: string, e: string)
    requires '/' !in stem && '/' !in e
    ensures '/' !in stem + "." + e
  {
    var r := stem + "." + e;
    forall i | 0 <= i < |r| ensures r[i] != '/' {
      if i < |stem| {
        assert r[i] == stem[i];
      } else if i > |stem| {
        assert r[i] == e[i - |stem| - 1];
      }
    }
  }

  lemma CancelSuffix(a: string, b: string, x: string)
    requires a + x == b + x
    ensures a == b
  {
    assert a == (a + x)[..|a|];
    assert b == (b + x)[..|b|];
  }

  /** For `dir/stem.e` with a stem that is not all dots, the file id is the
      stem and the raw extension is `.e` ... */
  lemma {:induction false} SimpleKey(dir: string, stem: string, e: string)
    requires '/' !in stem && !AllDots(stem)
    requires '.' !in e && '/' !in e
    ensures FileIdOf(dir + "/" + stem + "." + e) == stem
    ensures SplitExt(dir + "/" + stem + "." + e).1 == "." + e
  {
    SimpleKeyRawExtension(dir, stem, e);
    NoSeparatorIn(stem, e);
    SimpleKeyBasename(dir, stem, e);
    FileIdFromParts(dir + "/" + stem + "." + e, stem, "." + e);
  }

  lemma SimpleKeyBasename(dir: string, stem: string, e: string)
    requires '/' !in stem + "." + e
    ensures Basename(dir + "/" + stem + "." + e) == stem + ("." + e)
  {
    var rest := stem + "." + e;
    assert dir + "/" + stem + "." + e == dir + "/" + rest;
    BasenameAfterDir(dir, rest);
  }

  /** The file id is what remains of the last component once the raw
      extension is cut off. */
  lemma {:induction false} FileIdFromParts(p: string, stem: string, ext: string)
    requires Basename(p) == stem + ext
    requires SplitExt(p).1 == ext
    ensures FileIdOf(p) == stem
  {
    CancelSuffix(FileIdOf(p), stem, ext);
  }

  /** ... and the routing extension is `.e` lower-cased. */
  lemma SimpleKeyExtension(dir: string, stem: string, e: string)
    requires '/' !in stem && !AllDots(stem)
    requires '.' !in e && '/' !in e
    ensures ExtensionOf(dir + "/" + stem + "." + e) == "." + Lower(e)
  {
    SimpleKey(dir, stem, e);
    LowerDotted(e);
  }

  lemma LowerDotted(e: string)
    ensures Lower("." + e) == "." + Lower(e)
  {
    LowerConcat(".", e);
    assert Lower(".") == ".";
  }

  datatype Strategy = ImageToPdf | DocumentToPdf

  const ImageExtensions: seq<string> := [".jpg", ".jpeg", ".png"]
  const DocumentExtensions: seq<string> := [".doc", ".docx", ".xls", ".xlsx", ".txt"]

  /** The `if/elif/else` on the lower-cased extension. */
  function Route(ext: string): (r: Result<Strategy, string>)
    ensures r == Ok(ImageToPdf) <==> ext in ImageExtensions
    ensures r == Ok(DocumentToPdf) <==> ext in DocumentExtensions
    ensures r.Err? <==> ext !in ImageExtensions + DocumentExtensions
    ensures r.Err? ==> r.error == "Unsupported file type: " + ext
  {
    if ext in ImageExtensions then Ok(ImageToPdf)
    else if ext in DocumentExtensions then Ok(DocumentToPdf)
    else Err("Unsupported file type: " + ext)
  }

  lemma RoutePng()
    ensures Route(".png") == Ok(ImageToPdf)
  {
    assert ImageExtensions[2] == ".png";
  }

  /** A key without an extension (or with an unknown one) is never routed. */
  lemma RouteRejectsEmpty()
    ensures Route("") == Err("Unsupported file type: ")
    ensures Route(".gif") == Err("Unsupported file type: .gif")
  {
    assert "" !in ImageExtensions + DocumentExtensions by {
      forall x | x in ImageExtensions + DocumentExtensions ensures |x| > 0 { }
    }
    assert "Unsupported file type: " + "" == "Unsupported file type: ";
    assert ".gif" !in ImageExtensions + DocumentExtensions by {
      forall x | x in ImageExtensions + DocumentExtensions ensures |x| < 2 || x[1] != 'g' { }
    }
    assert "Unsupported file type: " + ".gif" == "Unsupported file type: .gif";
  }

  /** `SimpleKey` for a key given whole, as the examples below write it:
      the file id ... */
  lemma SimpleKeyFileIdExample(key: string, dir: string, stem: string, e: string)
    requires key == dir + "/" + stem + "." + e
    requires '/' !in stem && |stem| > 0 && stem[0] != '.'
    requires '.' !in e && '/' !in e
    ensures FileIdOf(key) == stem
  {
    SimpleKey(dir, stem, e);
  }

  /** ... and, for an extension `e` already in lower case, the routing
      extension. */
  lemma SimpleKeyExtensionExample(key: string, dir: string, stem: string, e: string)
    requires key == dir + "/" + stem + "." + e
    requires '/' !in stem && |stem| > 0 && stem[0] != '.'
    requires '.' !in e && '/' !in e
    requires forall i :: 0 <= i < |e| ==> !('A' <= e[i] <= 'Z')
    ensures ExtensionOf(key) == "." + e
  {
    SimpleKeyExtension(dir, stem, e);
    LowerKeeps(e);
  }

  /** The keys of the Lambda's image and unsupported-type tests both give
      the file id `test`. */
  lemma TestKeyFileId(key: string)
    requires key == "input/test.png" || key == "input/test.gif"
    ensures FileIdOf(key) == "test"
  {
    if key == "input/test.png" {
      SimpleKeyFileIdExample(key, "input", "test", "png");
    } else {
      SimpleKeyFileIdExample(key, "input", "test", "gif");
    }
  }

  /** The image test's key is routed to the image converter ... */
  lemma PngKeyRouted()
    ensures Route(ExtensionOf("input/test.png")) == Ok(ImageToPdf)
  {
    SimpleKeyExtensionExample("input/test.png", "input", "test", "png");
    assert "." + "png" == ".png";
    RoutePng();
  }

  /** ... and the unsupported-type test's key is rejected naming `.gif`. */
  lemma GifKeyRejected()
    ensures Route(ExtensionOf("input/test.gif")) == Err("Unsupported file type: .gif")
  {
    SimpleKeyExtensionExample("input/test.gif", "input", "test", "gif");
    assert "." + "gif" == ".gif";
    RouteRejectsEmpty();
  }

  // ---------------------------------------------------------------------
  // Converters

  /** Where both converters upload their result: `output/{file_id}.pdf`, from
      which the file id can be read back. */
  function OutputKey(fileId: string): (key: string)
    ensures |key| == |fileId| + 11
    ensures key[..7] == "output/" && key[|key| - 4..] == ".pdf"
    ensures key[7..|key| - 4] == fileId
  {
    "output/" + fileId + ".pdf"
  }

  /** Distinct files never share an output object. */
  lemma OutputKeyInjective(a: string, b: string)
    ensures OutputKey(a) == OutputKey(b) <==> a == b
  {
  }

  /** `convert_image_to_pdf` / `convert_document_to_pdf`: both catch every
      exception raised inside their `try` (the client is built before it),
      so the result is a plain boolean (`succeeded`, supplied by the
      environment). On success exactly `output/{file_id}.pdf` is added to the
      event's bucket; neither touches the status table. */
  function Convert(w: World, bucket: string, fileId: string, succeeded: bool): (r: (World, bool))
    ensures r.1 == succeeded
    ensures r.0.table == w.table
    ensures succeeded ==> r.0.objects == w.objects + {ObjectRef(bucket, OutputKey(fileId))}
    ensures !succeeded ==> r.0 == w
  {
    if succeeded then (w.(objects := w.objects + {ObjectRef(bucket, OutputKey(fileId))}), true)
    else (w, false)
  }

  // ---------------------------------------------------------------------
  // lambda_handler

  /** A subscript into the event record: found, or the `KeyError` text it raises. */
  datatype Field = Present(value: string) | Missing(keyError: string)

  /** One entry of `event['Records']`: `s3.bucket.name` and `s3.object.key`. */
  datatype S3Record = S3Record(bucket: Field, key: Field)

  /** One status write as the environment answers it: the clock reading it
      stores, and the text of the exception the store raises, if any. */
  datatype WriteEnv = WriteEnv(at: int, fault: Option<string>)

  /** Everything outside the code that decides how one record goes. */
  datatype RecordEnv = RecordEnv(processing: WriteEnv, converted: bool, success: WriteEnv, failed: WriteEnv)

  /** A status write the handler attempted, and whether the store applied it
      (a call that raises is taken to be one the store refused). */
  datatype StatusWrite = StatusWrite(fileId: string, status: Status, message: string, applied: bool)

  /** The effect of one record. `invoked` is the converter called, if any. */
  datatype Step = Step(world: World, writes: seq<StatusWrite>, invoked: Option<Strategy>)

  /** One call of `update_dynamodb_status`; a fault is a write the store
      refused, so it leaves the table unchanged. */
  function Attempt(t: Table, fileId: string, status: Status, message: string, e: WriteEnv): (r: (Table, StatusWrite))
    ensures r.1 == StatusWrite(fileId, status, message, e.fault.None?)
    ensures e.fault.Some? ==> r.0 == t
    ensures e.fault.None? ==> r.0 == WriteStatus(t, fileId, status, message, e.at)
  {
    if e.fault.None? then (WriteStatus(t, fileId, status, message, e.at), StatusWrite(fileId, status, message, true))
    else (t, StatusWrite(fileId, status, message, false))
  }

  /** The `except` branch once the key could be re-read: write FAILED with
      the text of the exception (a failing write is only logged). */
  function Fail(w: World, fileId: string, env: RecordEnv, writes: seq<StatusWrite>, invoked: Option<Strategy>, error: string): (s: Step)
    ensures s.world.objects == w.objects && s.invoked == invoked
    ensures s.writes == writes + [StatusWrite(fileId, Failed, error, env.failed.fault.None?)]
    ensures s.world.table - {fileId} == w.table - {fileId}
  {
    var (t, wr) := Attempt(w.table, fileId, Failed, error, env.failed);
    Step(World(t, w.objects), writes + [wr], invoked)
  }

  /** Lines 89-105 (and the `except` branch) for a record whose bucket and key
      were read, given the file id and the routing of the lower-cased
      extension derived from the key. Only the item `fileId` changes; the
      output object appears exactly when the extension routes, PROCESSING went
      through and the converter reports success. */
  function ProcessKey(w: World, bucket: string, fileId: string, route: Result<Strategy, string>, env: RecordEnv): (s: Step)
    ensures s.world.table - {fileId} == w.table - {fileId}
    ensures s.world.objects
            == if route.Ok? && env.processing.fault.None? && env.converted
               then w.objects + {ObjectRef(bucket, OutputKey(fileId))} else w.objects
    ensures s.invoked == if route.Ok? && env.processing.fault.None? then Some(route.value) else None
    ensures |s.writes| >= 2 && s.writes[0] == StatusWrite(fileId, Processing, "", env.processing.fault.None?)
  {
    var (t1, w1) := Attempt(w.table, fileId, Processing, "", env.processing);
    if env.processing.fault.Some? then Fail(w, fileId, env, [w1], None, env.processing.fault.value)
    else
      var w1World := World(t1, w.objects);
      match route
      case Err(msg) => Fail(w1World, fileId, env, [w1], None, msg)
      case Ok(strategy) =>
        var (w2, ok) := Convert(w1World, bucket, fileId, env.converted);
        if !ok then Fail(w2, fileId, env, [w1], Some(strategy), "Conversion failed")
        else
          var (t3, w3) := Attempt(w2.table, fileId, Success, "", env.success);
          if env.success.fault.Some? then Fail(w2, fileId, env, [w1, w3], Some(strategy), env.success.fault.value)
          else Step(World(t3, w2.objects), [w1, w3], Some(strategy))
  }

  /** The item a record's status writes go to, if its key can be read. */
  function Touched(rec: S3Record): Option<string>
  {
    if rec.key.Present? then Some(FileIdOf(rec.key.value)) else None
  }

  /** The body of the `for record in event['Records']` loop. A missing key
      stops the record before any write, and the `except` branch cannot re-read
      it either; a missing bucket fails before PROCESSING, and the `except`
      branch writes FAILED. A record changes only the item of its own file id
      and adds at most its own output object. */
  function ProcessRecord(w: World, rec: S3Record, env: RecordEnv): (s: Step)
    ensures Except(s.world.table, Touched(rec)) == Except(w.table, Touched(rec))
    ensures || s.world.objects == w.objects
            || (&& rec.bucket.Present? && rec.key.Present?
                && s.world.objects == w.objects + {ObjectRef(rec.bucket.value, OutputKey(FileIdOf(rec.key.value)))})
  {
    match rec.bucket
    case Missing(err) =>
      if rec.key.Present? then Fail(w, FileIdOf(rec.key.value), env, [], None, err)
      else Step(w, [], None)
    case Present(bucket) =>
      match rec.key
      case Missing(_) => Step(w, [], None)
      case Present(key) => ProcessKey(w, bucket, FileIdOf(key), Route(ExtensionOf(key)), env)
  }

  /** One record as the loop sees it: the state it leaves and the writes it attempted. */
  function RecordStep(w: World, rec: S3Record, env: RecordEnv): (r: (World, seq<StatusWrite>))
  {
    var s := ProcessRecord(w, rec, env);
    (s.world, s.writes)
  }

  /** The loop itself: records in order, each on the state the previous left. */
  function HandleRecords(w: World, records: seq<S3Record>, envs: seq<RecordEnv>): (r: (World, seq<StatusWrite>))
    requires |envs| == |records|
  {
    Run(w, records, envs, RecordStep)
  }

  /** The Lambda event: `event['Records']`, which may be missing. */
  datatype Event = Event(records: Option<seq<S3Record>>)

  datatype Response = Response(statusCode: int, body: string)

  datatype Outcome = Outcome(world: World, writes: seq<StatusWrite>, response: Response)

  /** `lambda_handler`: every record is handled inside its own try/except, so
      apart from building the unused `s3` client (not modelled) the only way
      out other than 200 is an event without `Records`, whose `KeyError`
      escapes. */
  function LambdaHandler(w: World, event: Event, envs: seq<RecordEnv>): (r: Result<Outcome, string>)
    requires event.records.Some? ==> |envs| == |event.records.value|
    ensures r.Ok? <==> event.records.Some?
    ensures r.Ok? ==> r.value.response == Response(200, "Processing complete")
    ensures r.Err? ==> r.error == "'Records'"
  {
    match event.records
    case None => Err("'Records'")
    case Some(records) =>
      var (w', writes) := HandleRecords(w, records, envs);
      Ok(Outcome(w', writes, Response(200, "Processing complete")))
  }
}

=== FILE: lambda_properties.dfy ===
/** Properties of the conversion Lambda's record loop: the outcome of one
    record, what it leaves alone, and how records in one batch relate. */
module LambdaProperties {
  import opened Wrappers
  import opened PathText
  import opened Records
  import opened ConvertToPdf
  import opened Batch

  // ---------------------------------------------------------------------
  // One record, once its bucket and key are read

  /** When every store write goes through, the item ends SUCCESS exactly when
      the extension routes to a converter and that converter reports success,
      and FAILED otherwise, carrying the text that was raised. PROCESSING was
      written first, and the output object exists exactly after a success. */
  lemma KeyOutcome(w: World, bucket: string, fileId: string, route: Result<Strategy, string>, env: RecordEnv)
    requires env.processing.fault.None? && env.success.fault.None? && env.failed.fault.None?
    ensures var s := ProcessKey(w, bucket, fileId, route, env);
            && fileId in s.world.table
            && (s.world.table[fileId].status == Success <==> route.Ok? && env.converted)
            && (s.world.table[fileId].status == Failed <==> !(route.Ok? && env.converted))
            && (route.Err? ==> s.world.table[fileId].errorMessage == ErrorValue(route.error))
            && (route.Ok? && !env.converted ==> s.world.table[fileId].errorMessage == Text("Conversion failed"))
            && (route.Ok? && env.converted ==> s.world.table[fileId].errorMessage == Null)
            && (route.Ok? && env.converted ==> ObjectRef(bucket, OutputKey(fileId)) in s.world.objects)
            && s.writes[0] == StatusWrite(fileId, Processing, "", true)
            && |s.writes| == 2
  {
    assert "Conversion failed" != "";
  }

  /** An unsupported extension is rejected after the PROCESSING write and
      before any converter runs; the FAILED write carries the routing error. */
  lemma KeyUnsupported(w: World, bucket: string, fileId: string, route: Result<Strategy, string>, env: RecordEnv)
    requires env.processing.fault.None? && route.Err?
    ensures var s := ProcessKey(w, bucket, fileId, route, env);
            && s.invoked == None
            && s.world.objects == w.objects
            && s.writes == [StatusWrite(fileId, Processing, "", true),
                            StatusWrite(fileId, Failed, route.error, env.failed.fault.None?)]
  {
  }

  /** A PROCESSING write that raises does not end the record: no converter is
      called, and a FAILED write carrying the store's error text is attempted. */
  lemma KeyProcessingFault(w: World, bucket: string, fileId: string, route: Result<Strategy, string>, env: RecordEnv)
    requires env.processing.fault.Some?
    ensures var s := ProcessKey(w, bucket, fileId, route, env);
            && s.invoked == None
            && s.world.objects == w.objects
            && s.writes == [StatusWrite(fileId, Processing, "", false),
                            StatusWrite(fileId, Failed, env.processing.fault.value, env.failed.fault.None?)]
  {
  }

  /** A SUCCESS write that raises is caught like any other failure, so a FAILED
      write follows it even though the PDF was already uploaded. */
  lemma KeySuccessFault(w: World, bucket: string, fileId: string, route: Result<Strategy, string>, env: RecordEnv)
    requires env.processing.fault.None? && env.converted && env.success.fault.Some? && route.Ok?
    ensures var s := ProcessKey(w, bucket, fileId, route, env);
            && ObjectRef(bucket, OutputKey(fileId)) in s.world.objects
            && s.writes == [StatusWrite(fileId, Processing, "", true),
                            StatusWrite(fileId, Success, "", false),
                            StatusWrite(fileId, Failed, env.success.fault.value, env.failed.fault.None?)]
  {
  }

  /** Once the FAILED write can go through, the item never stays in
      PROCESSING: it ends SUCCESS or FAILED. */
  lemma KeyTerminal(w: World, bucket: string, fileId: string, route: Result<Strategy, string>, env: RecordEnv)
    requires env.failed.fault.None?
    ensures var s := ProcessKey(w, bucket, fileId, route, env);
            fileId in s.world.table && s.world.table[fileId].status in {Success, Failed}
  {
  }

  /** But when the store refuses both final writes, the item is left in
      PROCESSING even though the PDF exists. */
  lemma KeyStuckInProcessing(w: World, bucket: string, fileId: string, route: Result<Strategy, string>, env: RecordEnv)
    requires env.processing.fault.None? && env.converted && route.Ok?
    requires env.success.fault.Some? && env.failed.fault.Some?
    ensures var s := ProcessKey(w, bucket, fileId, route, env);
            && fileId in s.world.table
            && s.world.table[fileId].status == Processing
            && ObjectRef(bucket, OutputKey(fileId)) in s.world.objects
  {
  }

  /** What a record attempts does not depend on the store's contents. */
  lemma KeyIgnoresStore(w1: World, w2: World, bucket: string, fileId: string, route: Result<Strategy, string>, env: RecordEnv)
    ensures ProcessKey(w1, bucket, fileId, route, env).writes == ProcessKey(w2, bucket, fileId, route, env).writes
    ensures ProcessKey(w1, bucket, fileId, route, env).invoked == ProcessKey(w2, bucket, fileId, route, env).invoked
  {
  }

  // ---------------------------------------------------------------------
  // One record, from the event

  /** A record with a bucket and a key is `ProcessKey` on the derived file id
      and the routing of the lower-cased extension. */
  lemma KeyedRecord(w: World, bucket: string, key: string, env: RecordEnv)
    ensures ProcessRecord(w, S3Record(Present(bucket), Present(key)), env)
            == ProcessKey(w, bucket, FileIdOf(key), Route(ExtensionOf(key)), env)
  {
  }

  /** For a record whose store writes all go through: SUCCESS iff the
      lower-cased extension is supported and the converter succeeded;
      otherwise FAILED naming the extension or the conversion failure. */
  lemma RecordOutcome(w: World, bucket: string, key: string, env: RecordEnv)
    requires env.processing.fault.None? && env.success.fault.None? && env.failed.fault.None?
    ensures var s := ProcessRecord(w, S3Record(Present(bucket), Present(key)), env);
            var id := FileIdOf(key);
            var supported := ExtensionOf(key) in ImageExtensions + DocumentExtensions;
            && id in s.world.table
            && (s.world.table[id].status == Success <==> supported && env.converted)
            && (s.world.table[id].status == Failed <==> !(supported && env.converted))
            && (!supported ==> s.world.table[id].errorMessage == Text("Unsupported file type: " + ExtensionOf(key)))
            && (supported && !env.converted ==> s.world.table[id].errorMessage == Text("Conversion failed"))
  {
    KeyedRecord(w, bucket, key, env);
    KeyOutcome(w, bucket, FileIdOf(key), Route(ExtensionOf(key)), env);
  }

  /** The image test's record: the image converter is called for file id
      `test`, and with a working store and converter the item ends SUCCESS. */
  lemma ImageTestRecord(w: World, env: RecordEnv)
    requires env.processing.fault.None? && env.success.fault.None? && env.failed.fault.None? && env.converted
    ensures var s := ProcessRecord(w, S3Record(Present("test-bucket"), Present("input/test.png")), env);
            && s.invoked == Some(ImageToPdf)
            && s.writes == [StatusWrite("test", Processing, "", true), StatusWrite("test", Success, "", true)]
            && ObjectRef("test-bucket", OutputKey("test")) in s.world.objects
            && "test" in s.world.table && s.world.table["test"].status == Success
  {
    TestKeyFileId("input/test.png");
    PngKeyRouted();
    ConvertedRecordAs(w, "test-bucket", "input/test.png", "test", ImageToPdf, env);
  }

  /** A record whose extension routes and whose store and converter work
      attempts exactly PROCESSING then SUCCESS and calls the routed converter. */
  lemma ConvertedRecordAs(w: World, bucket: string, key: string, id: string, strategy: Strategy, env: RecordEnv)
    requires env.processing.fault.None? && env.success.fault.None? && env.converted
    requires FileIdOf(key) == id && Route(ExtensionOf(key)) == Ok(strategy)
    ensures var s := ProcessRecord(w, S3Record(Present(bucket), Present(key)), env);
            && s.invoked == Some(strategy)
            && s.writes == [StatusWrite(id, Processing, "", true), StatusWrite(id, Success, "", true)]
            && ObjectRef(bucket, OutputKey(id)) in s.world.objects
            && id in s.world.table && s.world.table[id].status == Success
  {
    KeyedRecord(w, bucket, key, env);
  }

  /** The unsupported-type test's record: `input/test.gif` ends FAILED under
      file id `test` with the routing error, and no converter is called. */
  lemma GifTestRecord(w: World, env: RecordEnv)
    requires env.processing.fault.None? && env.failed.fault.None?
    ensures var s := ProcessRecord(w, S3Record(Present("test-bucket"), Present("input/test.gif")), env);
            && s.invoked == None
            && "test" in s.world.table
            && s.world.table["test"].status == Failed
            && s.world.table["test"].errorMessage == Text("Unsupported file type: .gif")
  {
    TestKeyFileId("input/test.gif");
    GifKeyRejected();
    RejectedRecordAs(w, "test-bucket", "input/test.gif", "test", "Unsupported file type: .gif", env);
  }

  /** A record whose extension does not route ends FAILED with the routing
      error, and no converter is called. */
  lemma RejectedRecordAs(w: World, bucket: string, key: string, id: string, error: string, env: RecordEnv)
    requires env.processing.fault.None? && env.failed.fault.None?
    requires FileIdOf(key) == id && Route(ExtensionOf(key)) == Err(error)
    ensures var s := ProcessRecord(w, S3Record(Present(bucket), Present(key)), env);
            && s.invoked == None
            && id in s.world.table
            && s.world.table[id].status == Failed
            && s.world.table[id].errorMessage == Text(error)
  {
    KeyedRecord(w, bucket, key, env);
  }

  /** Without a readable key nothing can be written: the record is skipped. */
  lemma MissingKeyChangesNothing(w: World, bucket: Field, err: string, env: RecordEnv)
    ensures var s := ProcessRecord(w, S3Record(bucket, Missing(err)), env);
            s.world == w && s.writes == [] && s.invoked == None
  {
  }

  /** A missing bucket name fails before PROCESSING; the except branch still
      reads the key and records the KeyError text as FAILED. */
  lemma MissingBucketWritesFailed(w: World, err: string, key: string, env: RecordEnv)
    ensures var s := ProcessRecord(w, S3Record(Missing(err), Present(key)), env);
            && s.invoked == None
            && s.world.objects == w.objects
            && s.writes == [StatusWrite(FileIdOf(key), Failed, err, env.failed.fault.None?)]
  {
  }

  /** What a record attempts does not depend on the store's contents. */
  lemma ProcessRecordIgnoresStore(w1: World, w2: World, rec: S3Record, env: RecordEnv)
    ensures ProcessRecord(w1, rec, env).writes == ProcessRecord(w2, rec, env).writes
  {
    if rec.bucket.Present? && rec.key.Present? {
      var key := rec.key.value;
      KeyIgnoresStore(w1, w2, rec.bucket.value, FileIdOf(key), Route(ExtensionOf(key)), env);
    }
  }

  // ---------------------------------------------------------------------
  // The batch

  /** Records are independent: the status writes the handler attempts for a
      batch are the same whatever the store held before, and so whatever
      earlier records did to it. */
  lemma HandleRecordsIgnoresStore(w1: World, w2: World, rs: seq<S3Record>, es: seq<RecordEnv>)
    requires |rs| == |es|
    ensures HandleRecords(w1, rs, es).1 == HandleRecords(w2, rs, es).1
  {
    forall a: World, b: World, r: S3Record, e: RecordEnv
      ensures RecordStep(a, r, e).1 == RecordStep(b, r, e).1
    {
      ProcessRecordIgnoresStore(a, b, r, e);
    }
    RunLogIgnoresState(w1, w2, rs, es, RecordStep);
  }

  /** An item no record of the batch touches is left as it was. */
  lemma HandleRecordsUntouched(w: World, rs: seq<S3Record>, es: seq<RecordEnv>, k: string)
    requires |rs| == |es|
    requires forall j :: 0 <= j < |rs| ==> Touched(rs[j]) != Some(k)
    ensures AgreeOn(w.table, HandleRecords(w, rs, es).0.table, k)
  {
    var inv := (x: World) => AgreeOn(w.table, x.table, k);
    var admissible := (r: S3Record, e: RecordEnv) => Touched(r) != Some(k);
    forall a: World, r: S3Record, e: RecordEnv | inv(a) && admissible(r, e)
      ensures inv(RecordStep(a, r, e).0)
    {
      ExceptAgree(a.table, ProcessRecord(a, r, e).world.table, Touched(r), k);
    }
    RunPreserves(w, rs, es, RecordStep, inv, admissible);
  }

  /** A record's item after the whole batch is what that record left it, as
      long as no later record of the batch writes the same item: an earlier
      record's failure cannot stop a later one. */
  lemma BatchIsolation(w: World, rs: seq<S3Record>, es: seq<RecordEnv>, i: nat)
    requires |rs| == |es| && i < |rs|
    requires rs[i].key.Present?
    requires forall j :: i < j < |rs| ==> Touched(rs[j]) != Touched(rs[i])
    ensures var before := HandleRecords(w, rs[..i], es[..i]).0;
            AgreeOn(ProcessRecord(before, rs[i], es[i]).world.table, HandleRecords(w, rs, es).0.table, FileIdOf(rs[i].key.value))
  {
    var before := HandleRecords(w, rs[..i], es[..i]).0;
    var after := ProcessRecord(before, rs[i], es[i]).world;
    RunAt(w, rs, es, RecordStep, i);
    assert RecordStep(before, rs[i], es[i]).0 == after;
    var tail, etail := rs[i + 1..], es[i + 1..];
    var id := FileIdOf(rs[i].key.value);
    forall j | 0 <= j < |tail|
      ensures Touched(tail[j]) != Some(id)
    {
      assert tail[j] == rs[i + 1 + j];
    }
    HandleRecordsUntouched(after, tail, etail, id);
  }

  /** Within a batch, a record whose writes all go through and whose item no
      later record touches ends as `RecordOutcome` says, whatever the records
      before it did. */
  lemma BatchRecordOutcome(w: World, rs: seq<S3Record>, es: seq<RecordEnv>, i: nat)
    requires |rs| == |es| && i < |rs|
    requires rs[i].bucket.Present? && rs[i].key.Present?
    requires es[i].processing.fault.None? && es[i].success.fault.None? && es[i].failed.fault.None?
    requires forall j :: i < j < |rs| ==> Touched(rs[j]) != Touched(rs[i])
    ensures var key := rs[i].key.value;
            var supported := ExtensionOf(key) in ImageExtensions + DocumentExtensions;
            var t := HandleRecords(w, rs, es).0.table;
            && FileIdOf(key) in t
            && (t[FileIdOf(key)].status == Success <==> supported && es[i].converted)
            && (t[FileIdOf(key)].status == Failed <==> !(supported && es[i].converted))
            && (!supported ==> t[FileIdOf(key)].errorMessage == Text("Unsupported file type: " + ExtensionOf(key)))
            && (supported && !es[i].converted ==> t[FileIdOf(key)].errorMessage == Text("Conversion failed"))
  {
    BatchIsolation(w, rs, es, i);
    var before := HandleRecords(w, rs[..i], es[..i]).0;
    RecordOutcome(before, rs[i].bucket.value, rs[i].key.value, es[i]);
  }

  /** An unsupported file earlier in a batch does not stop a later one: in
      any batch, a record at position `i` with an unsupported extension ends
      FAILED naming the extension, a later record at `j` that converts still
      ends SUCCESS, and the handler answers 200 (provided no later record
      writes either item and their store writes go through). */
  lemma UnsupportedThenSupported(w: World, rs: seq<S3Record>, es: seq<RecordEnv>, i: nat, j: nat)
    requires |rs| == |es| && i < j < |rs|
    requires rs[i].bucket.Present? && rs[i].key.Present? && rs[j].bucket.Present? && rs[j].key.Present?
    requires ExtensionOf(rs[i].key.value) !in ImageExtensions + DocumentExtensions
    requires ExtensionOf(rs[j].key.value) in ImageExtensions + DocumentExtensions
    requires es[i].processing.fault.None? && es[i].success.fault.None? && es[i].failed.fault.None?
    requires es[j].processing.fault.None? && es[j].success.fault.None? && es[j].failed.fault.None? && es[j].converted
    requires forall k :: i < k < |rs| ==> Touched(rs[k]) != Touched(rs[i])
    requires forall k :: j < k < |rs| ==> Touched(rs[k]) != Touched(rs[j])
    ensures var r := LambdaHandler(w, Event(Some(rs)), es);
            var id1, id2 := FileIdOf(rs[i].key.value), FileIdOf(rs[j].key.value);
            && r.Ok?
            && r.value.response.statusCode == 200
            && id1 in r.value.world.table && r.value.world.table[id1].status == Failed
            && r.value.world.table[id1].errorMessage == Text("Unsupported file type: " + ExtensionOf(rs[i].key.value))
            && id2 in r.value.world.table && r.value.world.table[id2].status == Success
  {
    var h := HandleRecords(w, rs, es);
    assert LambdaHandler(w, Event(Some(rs)), es) == Ok(Outcome(h.0, h.1, Response(200, "Processing complete")));
    BatchUnsupportedFails(w, rs, es, i);
    BatchConvertedSucceeds(w, rs, es, j);
  }

  /** In any batch, a record with an unsupported extension ends FAILED naming
      the extension, unless a later record writes the same item. */
  lemma BatchUnsupportedFails(w: World, rs: seq<S3Record>, es: seq<RecordEnv>, i: nat)
    requires |rs| == |es| && i < |rs|
    requires rs[i].bucket.Present? && rs[i].key.Present?
    requires ExtensionOf(rs[i].key.value) !in ImageExtensions + DocumentExtensions
    requires es[i].processing.fault.None? && es[i].success.fault.None? && es[i].failed.fault.None?
    requires forall k :: i < k < |rs| ==> Touched(rs[k]) != Touched(rs[i])
    ensures var t := HandleRecords(w, rs, es).0.table;
            var id := FileIdOf(rs[i].key.value);
            && id in t && t[id].status == Failed
            && t[id].errorMessage == Text("Unsupported file type: " + ExtensionOf(rs[i].key.value))
  {
    BatchRecordOutcome(w, rs, es, i);
  }

  /** In any batch, a record with a supported extension whose converter and
      store writes succeed ends SUCCESS, unless a later record writes the
      same item. */
  lemma BatchConvertedSucceeds(w: World, rs: seq<S3Record>, es: seq<RecordEnv>, j: nat)
    requires |rs| == |es| && j < |rs|
    requires rs[j].bucket.Present? && rs[j].key.Present?
    requires ExtensionOf(rs[j].key.value) in ImageExtensions + DocumentExtensions
    requires es[j].processing.fault.None? && es[j].success.fault.None? && es[j].failed.fault.None? && es[j].converted
    requires forall k :: j < k < |rs| ==> Touched(rs[k]) != Touched(rs[j])
    ensures var t := HandleRecords(w, rs, es).0.table;
            var id := FileIdOf(rs[j].key.value);
            id in t && t[id].status == Success
  {
    BatchRecordOutcome(w, rs, es, j);
  }

  // ---------------------------------------------------------------------
  // Table invariants

  /** A status write keeps "error_message present iff FAILED" when it carries
      text exactly for FAILED. */
  lemma AttemptKeepsErrorIffFailed(t: Table, fileId: string, status: Status, message: string, e: WriteEnv)
    requires message != "" <==> status == Failed
    requires ErrorIffFailed(t)
    ensures ErrorIffFailed(Attempt(t, fileId, status, message, e).0)
  {
  }

  /** Store-error texts are non-empty, and so is every `KeyError` text (it is
      the quoted missing key). */
  predicate NonEmptyErrors(rec: S3Record, env: RecordEnv)
  {
    && (rec.bucket.Missing? ==> rec.bucket.keyError != "")
    && (env.processing.fault.Some? ==> env.processing.fault.value != "")
    && (env.success.fault.Some? ==> env.success.fault.value != "")
  }

  lemma KeyKeepsErrorIffFailed(w: World, bucket: string, fileId: string, route: Result<Strategy, string>, env: RecordEnv)
    requires route.Err? ==> route.error != ""
    requires env.processing.fault.Some? ==> env.processing.fault.value != ""
    requires env.success.fault.Some? ==> env.success.fault.value != ""
    requires ErrorIffFailed(w.table)
    ensures ErrorIffFailed(ProcessKey(w, bucket, fileId, route, env).world.table)
  {
    var (t1, _) := Attempt(w.table, fileId, Processing, "", env.processing);
    AttemptKeepsErrorIffFailed(w.table, fileId, Processing, "", env.processing);
    if env.processing.fault.Some? {
      AttemptKeepsErrorIffFailed(w.table, fileId, Failed, env.processing.fault.value, env.failed);
    } else if route.Err? {
      AttemptKeepsErrorIffFailed(t1, fileId, Failed, route.error, env.failed);
    } else if !env.converted {
      AttemptKeepsErrorIffFailed(t1, fileId, Failed, "Conversion failed", env.failed);
    } else {
      AttemptKeepsErrorIffFailed(t1, fileId, Success, "", env.success);
      if env.success.fault.Some? {
        AttemptKeepsErrorIffFailed(t1, fileId, Failed, env.success.fault.value, env.failed);
      }
    }
  }

  /** With non-empty error texts, a record keeps "error_message present iff
      FAILED". */
  lemma ProcessRecordKeepsErrorIffFailed(w: World, rec: S3Record, env: RecordEnv)
    requires NonEmptyErrors(rec, env)
    requires ErrorIffFailed(w.table)
    ensures ErrorIffFailed(ProcessRecord(w, rec, env).world.table)
  {
    match rec.key
    case Missing(_) =>
    case Present(key) =>
      match rec.bucket
      case Missing(err) =>
        AttemptKeepsErrorIffFailed(w.table, FileIdOf(key), Failed, err, env.failed);
      case Present(bucket) =>
        var route := Route(ExtensionOf(key));
        assert route.Err? ==> |route.error| > 0;
        KeyKeepsErrorIffFailed(w, bucket, FileIdOf(key), route, env);
  }

  /** The same across a whole batch. */
  lemma HandleRecordsKeepsErrorIffFailed(w: World, rs: seq<S3Record>, es: seq<RecordEnv>)
    requires |rs| == |es|
    requires forall j :: 0 <= j < |rs| ==> NonEmptyErrors(rs[j], es[j])
    requires ErrorIffFailed(w.table)
    ensures ErrorIffFailed(HandleRecords(w, rs, es).0.table)
  {
    var inv := (x: World) => ErrorIffFailed(x.table);
    forall a: World, r: S3Record, e: RecordEnv | inv(a) && NonEmptyErrors(r, e)
      ensures inv(RecordStep(a, r, e).0)
    {
      ProcessRecordKeepsErrorIffFailed(a, r, e);
    }
    RunPreserves(w, rs, es, RecordStep, inv, NonEmptyErrors);
  }

  /** No status write sets `converted_filename`, whatever it carries. */
  lemma AttemptKeepsNoConverted(t: Table, fileId: string, status: Status, message: string, e: WriteEnv)
    requires NoConvertedFilename(t)
    ensures NoConvertedFilename(Attempt(t, fileId, status, message, e).0)
  {
  }

  lemma KeyKeepsNoConverted(w: World, bucket: string, fileId: string, route: Result<Strategy, string>, env: RecordEnv)
    requires NoConvertedFilename(w.table)
    ensures NoConvertedFilename(ProcessKey(w, bucket, fileId, route, env).world.table)
  {
    var (t1, _) := Attempt(w.table, fileId, Processing, "", env.processing);
    AttemptKeepsNoConverted(w.table, fileId, Processing, "", env.processing);
    if env.processing.fault.Some? {
      AttemptKeepsNoConverted(w.table, fileId, Failed, env.processing.fault.value, env.failed);
    } else if route.Err? {
      AttemptKeepsNoConverted(t1, fileId, Failed, route.error, env.failed);
    } else if !env.converted {
      AttemptKeepsNoConverted(t1, fileId, Failed, "Conversion failed", env.failed);
    } else {
      AttemptKeepsNoConverted(t1, fileId, Success, "", env.success);
      if env.success.fault.Some? {
        AttemptKeepsNoConverted(t1, fileId, Failed, env.success.fault.value, env.failed);
      }
    }
  }

  /** Any record, with any outcome and any store faults, leaves
      `converted_filename` unset. */
  lemma ProcessRecordKeepsNoConverted(w: World, rec: S3Record, env: RecordEnv)
    requires NoConvertedFilename(w.table)
    ensures NoConvertedFilename(ProcessRecord(w, rec, env).world.table)
  {
    match rec.key
    case Missing(_) =>
    case Present(key) =>
      match rec.bucket
      case Missing(err) =>
        AttemptKeepsNoConverted(w.table, FileIdOf(key), Failed, err, env.failed);
      case Present(bucket) =>
        KeyKeepsNoConverted(w, bucket, FileIdOf(key), Route(ExtensionOf(key)), env);
  }

  /** The same across any batch. */
  lemma HandleRecordsKeepsNoConverted(w: World, rs: seq<S3Record>, es: seq<RecordEnv>)
    requires |rs| == |es|
    requires NoConvertedFilename(w.table)
    ensures NoConvertedFilename(HandleRecords(w, rs, es).0.table)
  {
    var inv := (x: World) => NoConvertedFilename(x.table);
    var any := (r: S3Record, e: RecordEnv) => true;
    forall a: World, r: S3Record, e: RecordEnv | inv(a) && any(r, e)
      ensures inv(RecordStep(a, r, e).0)
    {
      ProcessRecordKeepsNoConverted(a, r, e);
    }
    RunPreserves(w, rs, es, RecordStep, inv, any);
  }
}

=== FILE: path_text.dfy ===
/** The string primitives the conversion pipeline is built from: Python's
    `str.rfind`, `os.path.basename`, `os.path.splitext` (POSIX flavour) and
    `str.lower`, restricted to ASCII letters. */
module PathText {

  /** Index of the last `c` in `s`, or -1 when there is none (`str.rfind`). */
  function LastIndexOf(s: string, c: char): (r: int)
    ensures -1 <= r < |s|
    ensures r >= 0 ==> s[r] == c
  {
    if |s| == 0 then -1
    else if s[|s| - 1] == c then |s| - 1
    else LastIndexOf(s[..|s| - 1], c)
  }

  /** No `c` follows the one `LastIndexOf` finds. */
  lemma {:induction false} LastIndexOfIsLast(s: string, c: char)
    ensures forall i :: LastIndexOf(s, c) < i < |s| ==> s[i] != c
  {
    if |s| > 0 && s[|s| - 1] != c {
      var s' := s[..|s| - 1];
      LastIndexOfIsLast(s', c);
      assert forall i :: 0 <= i < |s'| ==> s[i] == s'[i];
    }
  }

  /** The properties of `LastIndexOf` determine it. */
  lemma {:induction false} LastIndexOfUnique(s: string, c: char, r: int)
    requires -1 <= r < |s|
    requires r >= 0 ==> s[r] == c
    requires forall i :: r < i < |s| ==> s[i] != c
    ensures LastIndexOf(s, c) == r
  {
    if |s| > 0 && s[|s| - 1] != c {
      var s' := s[..|s| - 1];
      assert r < |s'|;
      assert forall i :: r < i < |s'| ==> s'[i] == s[i];
      LastIndexOfUnique(s', c, r);
    }
  }

  /** The last `c` of `a + [c] + b` is the displayed one when `b` has none. */
  lemma LastIndexOfAfter(a: string, c: char, b: string)
    requires c !in b
    ensures LastIndexOf(a + [c] + b, c) == |a|
  {
    var head := a + [c];
    var p := head + b;
    var k := |a|;
    assert |head| == k + 1 && head[k] == c;
    forall i | k < i < |p|
      ensures p[i] != c
    {
      var m := i - (k + 1);
      assert p[i] == b[m];
      assert b[m] in b;
    }
    assert p[k] == head[k];
    LastIndexOfUnique(p, c, k);
  }

  /** Searching a suffix finds the same occurrence, shifted, if it lies in the suffix. */
  lemma LastIndexOfSuffix(s: string, k: nat, c: char)
    requires k <= |s|
    ensures LastIndexOf(s[k..], c)
            == (if LastIndexOf(s, c) >= k then LastIndexOf(s, c) - k else -1)
  {
    var q := LastIndexOf(s, c);
    LastIndexOfIsLast(s, c);
    var t := s[k..];
    var r := if q >= k then q - k else -1;
    forall i | r < i < |t|
      ensures t[i] != c
    {
      assert t[i] == s[k + i];
    }
    LastIndexOfUnique(t, c, r);
  }

  /** `os.path.basename`: everything after the last '/'. */
  function Basename(p: string): (b: string)
    ensures |b| <= |p| && b == p[|p| - |b|..]
    ensures |b| < |p| ==> p[|p| - |b| - 1] == '/'
  {
    p[LastIndexOf(p, '/') + 1..]
  }

  /** The last component holds no separator. */
  lemma BasenameHasNoSeparator(p: string)
    ensures '/' !in Basename(p)
  {
    var sep := LastIndexOf(p, '/');
    LastIndexOfIsLast(p, '/');
    forall i | 0 <= i < |Basename(p)| ensures Basename(p)[i] != '/' {
      assert Basename(p)[i] == p[sep + 1 + i];
    }
  }

  /** Every character of `s` is a dot. */
  predicate AllDots(s: string)
  {
    |s| == 0 || (s[0] == '.' && AllDots(s[1..]))
  }

  lemma {:induction false} AllDotsMeans(s: string)
    ensures AllDots(s) <==> forall i :: 0 <= i < |s| ==> s[i] == '.'
  {
    if |s| > 0 {
      AllDotsMeans(s[1..]);
      assert forall i :: 1 <= i < |s| ==> s[i] == s[1..][i - 1];
    }
  }

  /** A file name has an extension when some dot follows some character that
      is not a dot (so ".bashrc" and "..." have none, "a.b" and ".a.b" do). */
  predicate HasExt(name: string)
  {
    exists i, j :: 0 <= j < i < |name| && name[j] != '.' && name[i] == '.'
  }

  /** Where `os.path.splitext` (for '/'-separated paths) cuts: at the last
      dot, provided that dot is in the last path component and something other
      than a dot precedes it there; otherwise at the end (no extension). */
  function ExtStart(p: string): (k: nat)
    ensures k <= |p|
    ensures k < |p| ==> p[k] == '.'
  {
    var sep := LastIndexOf(p, '/');
    var dot := LastIndexOf(p, '.');
    if dot > sep && !AllDots(p[sep + 1..dot]) then dot else |p|
  }

  /** Nothing after the cut is a '.' or a '/'. */
  lemma ExtStartIsLast(p: string)
    ensures forall i :: ExtStart(p) < i < |p| ==> p[i] != '.' && p[i] != '/'
  {
    LastIndexOfIsLast(p, '/');
    LastIndexOfIsLast(p, '.');
  }

  /** `os.path.splitext`: (root, ext) with `root + ext == p`; `ext` is empty or
      a dot followed by characters that are neither '.' nor '/'. */
  function SplitExt(p: string): (r: (string, string))
    ensures r.0 + r.1 == p
    ensures |r.1| > 0 ==> r.1[0] == '.'
  {
    var k := ExtStart(p);
    (p[..k], p[k..])
  }

  /** The extension is empty or a dot followed by characters that are
      neither '.' nor '/'. */
  lemma SplitExtShape(p: string)
    ensures forall i :: 0 <= i < |SplitExt(p).1| ==> SplitExt(p).1[i] != '/'
    ensures forall i :: 0 < i < |SplitExt(p).1| ==> SplitExt(p).1[i] != '.'
  {
    var k := ExtStart(p);
    ExtStartIsLast(p);
    forall i | 0 <= i < |SplitExt(p).1| ensures SplitExt(p).1[i] == p[k + i] { }
  }

  /** A path has the extension of its last component. */
  lemma {:induction false} ExtOfBasename(p: string)
    ensures SplitExt(Basename(p)).1 == SplitExt(p).1
  {
    var sep := LastIndexOf(p, '/');
    var dot := LastIndexOf(p, '.');
    var b := Basename(p);
    assert b == p[sep + 1..];
    LastIndexOfSuffix(p, sep + 1, '/');
    LastIndexOfSuffix(p, sep + 1, '.');
    assert LastIndexOf(b, '/') == -1;
    if dot > sep {
      var dotB := dot - (sep + 1);
      assert LastIndexOf(b, '.') == dotB;
      assert b[0..dotB] == p[sep + 1..dot];
      assert b[dotB..] == p[dot..];
    } else {
      assert LastIndexOf(b, '.') == -1;
    }
  }

  /** For a name without '/', a cut means a non-dot precedes a dot. */
  lemma {:induction false} CutMeansHasExt(b: string)
    requires LastIndexOf(b, '/') == -1
    requires SplitExt(b).1 != []
    ensures HasExt(b)
  {
    var dot := LastIndexOf(b, '.');
    assert dot > -1 && !AllDots(b[0..dot]);
    AllDotsMeans(b[0..dot]);
    var j :| 0 <= j < dot && b[0..dot][j] != '.';
    assert b[j] != '.' && b[dot] == '.';
  }

  /** For a name without '/', a non-dot before a dot means a cut. */
  lemma {:induction false} HasExtMeansCut(b: string)
    requires LastIndexOf(b, '/') == -1
    requires HasExt(b)
    ensures SplitExt(b).1 != []
  {
    var dot := LastIndexOf(b, '.');
    LastIndexOfIsLast(b, '.');
    var i, j :| 0 <= j < i < |b| && b[j] != '.' && b[i] == '.';
    assert dot >= i;
    AllDotsMeans(b[0..dot]);
    assert b[0..dot][j] != '.';
  }

  /** Independent characterisation: `splitext` finds an extension exactly
      when the last component `HasExt`. */
  lemma {:induction false} SplitExtFindsExtension(p: string)
    ensures SplitExt(p).1 != [] <==> HasExt(Basename(p))
  {
    ExtOfBasename(p);
    var b := Basename(p);
    LastIndexOfSuffix(p, LastIndexOf(p, '/') + 1, '/');
    assert LastIndexOf(b, '/') == -1;
    if SplitExt(b).1 != [] {
      CutMeansHasExt(b);
    }
    if HasExt(b) {
      HasExtMeansCut(b);
    }
  }

  /** A name that starts with a non-dot and ends in `.e`, with no '/' and
      no further dot in `e`, is cut just before that `.e`. */
  lemma {:induction false} SplitExtAtLastDot(a: string, e: string)
    requires |a| > 0 && a[0] != '.'
    requires '/' !in a && '/' !in e && '.' !in e
    ensures SplitExt(a + "." + e) == (a, "." + e)
  {
    var f := a + ['.'] + e;
    assert a + "." + e == f;
    LastIndexOfAfter(a, '.', e);
    assert '/' !in f;
    LastIndexOfUnique(f, '/', -1);
    AllDotsMeans(a);
    assert !AllDots(a);
    assert f[0..|a|] == a;
    assert ExtStart(f) == |a|;
    assert f[..|a|] == a;
    assert f[|a|..] == "." + e;
  }

  function LowerChar(c: char): char
  {
    if 'A' <= c <= 'Z' then (c as int + 32) as char else c
  }

  /** `str.lower` on ASCII letters; every other character is kept. */
  function Lower(s: string): (r: string)
    ensures |r| == |s|
    ensures forall i :: 0 <= i < |r| ==> !('A' <= r[i] <= 'Z')
    ensures forall i :: 0 <= i < |s| ==> r[i] == s[i] || r[i] as int == s[i] as int + 32
  {
    seq(|s|, i requires 0 <= i < |s| => LowerChar(s[i]))
  }

  /** A string without upper-case letters is its own lower case. */
  lemma LowerKeeps(s: string)
    requires forall i :: 0 <= i < |s| ==> !('A' <= s[i] <= 'Z')
    ensures Lower(s) == s
  {
    assert forall i :: 0 <= i < |s| ==> Lower(s)[i] == s[i];
  }

  lemma LowerIdempotent(s: string)
    ensures Lower(Lower(s)) == Lower(s)
  {
    assert forall m :: 0 <= m < |s| ==> Lower(Lower(s))[m] == Lower(s)[m];
  }

  lemma LowerConcat(a: string, b: string)
    ensures Lower(a + b) == Lower(a) + Lower(b)
  {
    var l := Lower(a + b);
    var r := Lower(a) + Lower(b);
    forall m | 0 <= m < |a| + |b| ensures l[m] == r[m] {
      if m < |a| {
        assert (a + b)[m] == a[m];
      } else {
        assert (a + b)[m] == b[m - |a|];
      }
    }
  }

  lemma LowerSlice(s: string, i: nat, j: nat)
    requires i <= j <= |s|
    ensures Lower(s[i..j]) == Lower(s)[i..j]
  {
    var u := s[i..j];
    forall m | 0 <= m < j - i ensures Lower(u)[m] == Lower(s)[i + m] {
      assert u[m] == s[i + m];
    }
  }

  /** Lower-casing makes no dot and removes none. */
  lemma {:induction false} AllDotsLower(u: string)
    ensures AllDots(Lower(u)) == AllDots(u)
  {
    if |u| > 0 {
      AllDotsLower(u[1..]);
      assert Lower(u)[0] == LowerChar(u[0]);
      LowerSlice(u, 1, |u|);
      assert u[1..|u|] == u[1..];
      assert Lower(u)[1..] == Lower(u[1..]);
    }
  }

  /** Lower-casing moves no '.' and no '/'. */
  lemma LastIndexOfLower(s: string, c: char)
    requires c == '.' || c == '/'
    ensures LastIndexOf(Lower(s), c) == LastIndexOf(s, c)
  {
    var r := LastIndexOf(s, c);
    LastIndexOfIsLast(s, c);
    forall i | r < i < |s|
      ensures Lower(s)[i] != c
    {
      assert s[i] != c;
    }
    LastIndexOfUnique(Lower(s), c, r);
  }

  /** Lower-casing does not move the cut `splitext` makes. */
  lemma ExtStartLower(p: string)
    ensures ExtStart(Lower(p)) == ExtStart(p)
  {
    var q := Lower(p);
    LastIndexOfLower(p, '/');
    LastIndexOfLower(p, '.');
    var sep := LastIndexOf(p, '/');
    var dot := LastIndexOf(p, '.');
    if dot > sep {
      LowerSlice(p, sep + 1, dot);
      AllDotsLower(p[sep + 1..dot]);
    }
  }

  /** `splitext` commutes with lower-casing, so the lower-cased extension does
      not depend on the case of the path. */
  lemma {:induction false} SplitExtLower(p: string)
    ensures SplitExt(Lower(p)) == (Lower(SplitExt(p).0), Lower(SplitExt(p).1))
  {
    var q := Lower(p);
    var k := ExtStart(p);
    ExtStartLower(p);
    LowerSlice(p, 0, k);
    LowerSlice(p, k, |p|);
    assert p[..k] == p[0..k] && p[k..] == p[k..|p|];
    assert q[..k] == q[0..k] && q[k..] == q[k..|q|];
  }
}

=== FILE: pipeline.dfy ===
/** How the two halves meet: the upload stores `input/{filename}`, the
    object-created event names the stored object to the conversion Lambda,
    and both write the same status table. The event's key is taken to be
    the stored key itself; S3 URL-encodes it in the event, so this holds
    for the filenames URL-encoding leaves unchanged. */
module Pipeline {
  import opened Wrappers
  import opened PathText
  import opened Records
  import opened ConvertToPdf
  import opened LambdaProperties
  import opened Api

  /** `splitext` cuts the input key inside the filename, never in `input/`. */
  lemma {:induction false} InputKeyCut(filename: string)
    ensures 6 <= ExtStart(InputKey(filename)) <= |InputKey(filename)|
  {
    var p := InputKey(filename);
    ExtStartIsLast(p);
    assert p[5] == '/';
  }

  /** The Lambda's file id for an uploaded file is never the id the upload
      recorded: it is at most as long as the filename, the upload's id is
      fifteen characters longer. */
  lemma {:induction false} FileIdsNeverMatch(stamp: string, filename: string)
    requires |stamp| == 14
    ensures FileIdOf(InputKey(filename)) != UploadFileId(stamp, filename)
  {
    var p := InputKey(filename);
    LastIndexOfIsLast(p, '/');
    assert p[5] == '/';
    assert LastIndexOf(p, '/') >= 5;
    var b := Basename(p);
    assert |b| <= |filename|;
    assert SplitExt(b).0 + SplitExt(b).1 == b;
  }

  /** The upload's check and the Lambda's routing read different
      extensions. The Lambda converts an uploaded file exactly when the
      upload's extension is allowed AND `splitext` finds an extension at all. */
  lemma {:induction false} RoutingMatchesUploadCheck(filename: string)
    ensures Route(ExtensionOf(InputKey(filename))).Ok?
            <==> UploadExtension(filename) in AllowedExtensions && SplitExt(InputKey(filename)).1 != []
  {
    var p := InputKey(filename);
    if SplitExt(p).1 == [] {
      assert ExtensionOf(p) == "";
      RouteRejectsEmpty();
    } else {
      RoutingWithExtension(filename);
    }
  }

  /** When `splitext` finds an extension in the upload's key, the Lambda's
      extension is the upload's, with a dot. */
  lemma {:induction false} RoutingWithExtension(filename: string)
    requires SplitExt(InputKey(filename)).1 != []
    ensures ExtensionOf(InputKey(filename)) == "." + UploadExtension(filename)
    ensures Route(ExtensionOf(InputKey(filename))).Ok? <==> UploadExtension(filename) in AllowedExtensions
  {
    var p := InputKey(filename);
    var ext := SplitExt(p).1;
    var k := ExtStart(p);
    InputKeyCut(filename);
    SplitExtShape(p);
    var e := ext[1..];
    assert ext == "." + e;
    assert '.' !in e by {
      forall i | 0 <= i < |e| ensures e[i] != '.' {
        assert e[i] == ext[i + 1];
      }
    }
    var stem := filename[..k - 6];
    assert filename == stem + "." + e by {
      assert p[k..] == ext;
      assert filename[k - 6..] == p[k..];
    }
    UploadExtensionAfterDot(stem, e);
    LowerDotted(e);
    SupportedIffAllowed(Lower(e));
  }

  /** The dotted routing tables are the upload's allowed set with a leading dot. */
  lemma SupportedIffAllowed(y: string)
    ensures "." + y in ImageExtensions + DocumentExtensions <==> y in AllowedExtensions
  {
    var d := "." + y;
    assert y == d[1..];
    if y in AllowedExtensions {
      var all := ImageExtensions + DocumentExtensions;
      assert d in all by {
        if y == "jpg" { assert d == ".jpg" == all[0]; }
        else if y == "jpeg" { assert d == ".jpeg" == all[1]; }
        else if y == "png" { assert d == ".png" == all[2]; }
        else if y == "doc" { assert d == ".doc" == all[3]; }
        else if y == "docx" { assert d == ".docx" == all[4]; }
        else if y == "xls" { assert d == ".xls" == all[5]; }
        else if y == "xlsx" { assert d == ".xlsx" == all[6]; }
        else { assert y == "txt"; assert d == ".txt" == all[7]; }
      }
    }
    if d in ImageExtensions + DocumentExtensions {
      var i :| 0 <= i < 8 && (ImageExtensions + DocumentExtensions)[i] == d;
      assert y in AllowedExtensions by {
        if i == 0 { assert d == ".jpg"; assert y == "jpg"; }
        else if i == 1 { assert d == ".jpeg"; assert y == "jpeg"; }
        else if i == 2 { assert d == ".png"; assert y == "png"; }
        else if i == 3 { assert d == ".doc"; assert y == "doc"; }
        else if i == 4 { assert d == ".docx"; assert y == "docx"; }
        else if i == 5 { assert d == ".xls"; assert y == "xls"; }
        else if i == 6 { assert d == ".xlsx"; assert y == "xlsx"; }
        else { assert d == ".txt"; assert y == "txt"; }
      }
    }
  }

  /** A filename without a dot passes the upload check on its own name but
      has no extension for `splitext`, so the Lambda marks it unsupported. */
  lemma {:induction false} DotlessNameDiverges(filename: string)
    requires '.' !in filename
    ensures UploadExtension(filename) == Lower(filename)
    ensures ExtensionOf(InputKey(filename)) == ""
    ensures Route(ExtensionOf(InputKey(filename))) == Err("Unsupported file type: ")
  {
    UploadExtensionNoDot(filename);
    var p := InputKey(filename);
    assert '.' !in p by {
      forall i | 0 <= i < |p| ensures p[i] != '.' {
        if i >= 6 {
          assert p[i] == filename[i - 6];
        }
      }
    }
    LastIndexOfUnique(p, '.', -1);
    assert SplitExt(p).1 == [];
    assert ExtensionOf(p) == Lower([]) == "";
    RouteRejectsEmpty();
  }

  /** A file named just `txt` is accepted by the upload and rejected by the
      Lambda. */
  lemma TxtDiverges()
    ensures UploadExtension("txt") in AllowedExtensions
    ensures Route(ExtensionOf(InputKey("txt"))) == Err("Unsupported file type: ")
  {
    assert '.' !in "txt";
    DotlessNameDiverges("txt");
    assert Lower("txt") == "txt";
  }

  /** The records of the event an upload triggers: each one carries the
      upload's key verbatim, if it carries a key at all (the filename is
      one URL-encoding leaves unchanged). */
  predicate EventOfUpload(records: seq<S3Record>, filename: string)
  {
    forall j :: 0 <= j < |records| && records[j].key.Present? ==> records[j].key.value == InputKey(filename)
  }

  /** The Lambda's handling of an upload's own event never updates the
      record that upload created: afterwards status lookup still reports it
      PENDING, with no error. (Another upload's event can; see
      `StampedNameCollides`.) */
  lemma UploadRecordStaysPending(w: World, bucket: string, filename: string, env: UploadEnv,
                                 records: seq<S3Record>, envs: seq<RecordEnv>)
    requires |env.stamp| == 14 && |records| == |envs|
    requires UploadFile(w, bucket, filename, env).response.Ok?
    requires EventOfUpload(records, filename)
    ensures var id := UploadFileId(env.stamp, filename);
            var t := HandleRecords(UploadFile(w, bucket, filename, env).world, records, envs).0.table;
            GetFileStatus(t, id) == Ok(FileStatus(id, filename, "PENDING", None, env.createdAt, env.updatedAt, None))
  {
    var id := UploadFileId(env.stamp, filename);
    var w1 := UploadFile(w, bucket, filename, env).world;
    FileIdsNeverMatch(env.stamp, filename);
    forall j | 0 <= j < |records| ensures Touched(records[j]) != Some(id) { }
    HandleRecordsUntouched(w1, records, envs, id);
    UploadThenStatus(w, bucket, filename, env);
  }

  /** An item the Lambda created lacks the upload's attributes. */
  lemma {:induction false} KeyKeepsFreshItem(w: World, bucket: string, fileId: string, route: Result<Strategy, string>, env: RecordEnv)
    requires fileId !in w.table
    ensures var t := ProcessKey(w, bucket, fileId, route, env).world.table;
            fileId in t ==> t[fileId].originalFilename.None? && t[fileId].createdAt.None?
  {
  }

  /** An item that already exists keeps the upload's attributes through
      the Lambda's writes. */
  lemma KeyKeepsUploadAttributes(w: World, bucket: string, fileId: string, route: Result<Strategy, string>, env: RecordEnv)
    requires fileId in w.table
    ensures var t := ProcessKey(w, bucket, fileId, route, env).world.table;
            && fileId in t
            && t[fileId].originalFilename == w.table[fileId].originalFilename
            && t[fileId].createdAt == w.table[fileId].createdAt
  {
  }

  /** The basename of `input/{filename}` is the filename when it holds no '/'. */
  lemma BasenameOfInputKey(filename: string)
    requires '/' !in filename
    ensures Basename(InputKey(filename)) == filename
  {
    assert InputKey(filename) == "input" + ['/'] + filename;
    LastIndexOfAfter("input", '/', filename);
  }

  /** The Lambda's id for the uploaded name `{stamp}_{name}.{e}` is the id
      an upload of `name` under the same stamp records. */
  lemma {:induction false} StampedNameCollides(stamp: string, name: string, e: string)
    requires |stamp| == 14 && stamp[0] != '.'
    requires '/' !in stamp && '/' !in name && '/' !in e && '.' !in e
    ensures FileIdOf(InputKey(stamp + "_" + name + "." + e)) == UploadFileId(stamp, name)
  {
    var a := stamp + "_" + name;
    assert '/' !in a && a[0] == stamp[0];
    SplitExtAtLastDot(a, e);
    BasenameOfInputKey(a + "." + e);
    assert stamp + "_" + name + "." + e == a + "." + e;
  }

  /** A record whose file id names an existing item ends that item SUCCESS
      or FAILED (given a working FAILED write) and keeps its upload
      attributes. */
  lemma RecordOnExistingItem(w: World, bucket: string, key: string, renv: RecordEnv)
    requires FileIdOf(key) in w.table
    requires renv.failed.fault.None?
    ensures var id := FileIdOf(key);
            var t := ProcessRecord(w, S3Record(Present(bucket), Present(key)), renv).world.table;
            && id in t
            && t[id].status in {Success, Failed}
            && t[id].originalFilename == w.table[id].originalFilename
            && t[id].createdAt == w.table[id].createdAt
  {
    KeyedRecord(w, bucket, key, renv);
    KeyTerminal(w, bucket, FileIdOf(key), Route(ExtensionOf(key)), renv);
    KeyKeepsUploadAttributes(w, bucket, FileIdOf(key), Route(ExtensionOf(key)), renv);
  }

  /** So a name that embeds another upload's stamp lands on that upload's
      record: with a working FAILED write, the Lambda leaves it SUCCESS or
      FAILED, and status lookup answers with the original upload's name. */
  lemma StampedNameLandsOnUpload(w: World, bucket: string, name: string, uenv: UploadEnv, e: string, renv: RecordEnv)
    requires |uenv.stamp| == 14 && uenv.stamp[0] != '.'
    requires '/' !in uenv.stamp && '/' !in name && '/' !in e && '.' !in e
    requires UploadFile(w, bucket, name, uenv).response.Ok?
    requires renv.failed.fault.None?
    ensures var id := UploadFileId(uenv.stamp, name);
            var w1 := UploadFile(w, bucket, name, uenv).world;
            var key := InputKey(uenv.stamp + "_" + name + "." + e);
            var r := GetFileStatus(ProcessRecord(w1, S3Record(Present(bucket), Present(key)), renv).world.table, id);
            && r.Ok?
            && r.value.originalFilename == name
            && r.value.status in {"SUCCESS", "FAILED"}
  {
    var id := UploadFileId(uenv.stamp, name);
    var w1 := UploadFile(w, bucket, name, uenv).world;
    var key := InputKey(uenv.stamp + "_" + name + "." + e);
    StampedNameCollides(uenv.stamp, name, e);
    UploadedItem(w, bucket, name, uenv);
    RecordOnExistingItem(w1, bucket, key, renv);
    var t := ProcessRecord(w1, S3Record(Present(bucket), Present(key)), renv).world.table;
    FinishedItemReads(t, id, name);
  }

  /** An accepted upload leaves its record with the name and a creation time. */
  lemma UploadedItem(w: World, bucket: string, name: string, uenv: UploadEnv)
    requires |uenv.stamp| == 14
    requires UploadFile(w, bucket, name, uenv).response.Ok?
    ensures var t := UploadFile(w, bucket, name, uenv).world.table;
            var id := UploadFileId(uenv.stamp, name);
            id in t && t[id].originalFilename == Some(name) && t[id].createdAt.Some?
  {
  }

  /** Status lookup of a finished item that carries the upload's attributes. */
  lemma FinishedItemReads(t: Table, id: string, name: string)
    requires id in t && t[id].status in {Success, Failed}
    requires t[id].originalFilename == Some(name) && t[id].createdAt.Some?
    ensures var r := GetFileStatus(t, id);
            r.Ok? && r.value.originalFilename == name && r.value.status in {"SUCCESS", "FAILED"}
  {
    StatusNameRoundTrip(t[id].status);
  }

  /** The item the Lambda writes for an uploaded file breaks both read
      endpoints: status lookup answers 500 (`'original_filename'`), and the
      statistics answer 500 (`'created_at'`) whatever the scan order. */
  lemma ConvertedUploadBreaksReads(w: World, bucket: string, filename: string, uenv: UploadEnv,
                                   renv: RecordEnv, order: seq<string>, now: int)
    requires |uenv.stamp| == 14
    requires UploadFile(w, bucket, filename, uenv).response.Ok?
    requires FileIdOf(InputKey(filename)) !in w.table
    requires renv.failed.fault.None?
    ensures var w1 := UploadFile(w, bucket, filename, uenv).world;
            var t := ProcessRecord(w1, S3Record(Present(bucket), Present(InputKey(filename))), renv).world.table;
            && GetFileStatus(t, FileIdOf(InputKey(filename))) == Err(HttpError(500, Message("'original_filename'")))
            && (IsScanOrder(t, order) ==> GetFileStatistics(t, order, now) == Err(HttpError(500, Message("'created_at'"))))
  {
    var key := InputKey(filename);
    var id := FileIdOf(key);
    var w1 := UploadFile(w, bucket, filename, uenv).world;
    FileIdsNeverMatch(uenv.stamp, filename);
    assert id !in w1.table;
    KeyedRecord(w1, bucket, key, renv);
    KeyTerminal(w1, bucket, id, Route(ExtensionOf(key)), renv);
    KeyKeepsFreshItem(w1, bucket, id, Route(ExtensionOf(key)), renv);
    var t := ProcessRecord(w1, S3Record(Present(bucket), Present(key)), renv).world.table;
    if IsScanOrder(t, order) {
      assert id in t && t[id].createdAt.None?;
    }
  }

  /** Nothing in the system ever sets `converted_filename`: uploads create
      records without it and the Lambda's writes keep it absent. */
  lemma NoConvertedFilenameEver(w: World, bucket: string, filename: string, uenv: UploadEnv,
                                records: seq<S3Record>, envs: seq<RecordEnv>)
    requires |uenv.stamp| == 14 && |records| == |envs|
    requires NoConvertedFilename(w.table)
    ensures NoConvertedFilename(HandleRecords(UploadFile(w, bucket, filename, uenv).world, records, envs).0.table)
  {
    var w1 := UploadFile(w, bucket, filename, uenv).world;
    assert NoConvertedFilename(w1.table);
    HandleRecordsKeepsNoConverted(w1, records, envs);
  }
}

=== FILE: records.dfy ===
/** The durable state both halves of the system share: the DynamoDB status
    table (one item per `file_id`) and the S3 bucket(s) holding inputs and
    converted PDFs. Timestamps are opaque ordered integers. */
module Records {
  import opened Wrappers

  /** The four status strings the code writes. */
  datatype Status = Pending | Processing | Success | Failed

  function StatusName(s: Status): (name: string)
  {
    match s
    case Pending => "PENDING"
    case Processing => "PROCESSING"
    case Success => "SUCCESS"
    case Failed => "FAILED"
  }

  /** Reading a stored status string back; anything else is not a status. */
  function StatusOf(name: string): (s: Option<Status>)
  {
    if name == "PENDING" then Some(Pending)
    else if name == "PROCESSING" then Some(Processing)
    else if name == "SUCCESS" then Some(Success)
    else if name == "FAILED" then Some(Failed)
    else None
  }

  /** Every status is read back as itself, so distinct statuses are stored as
      distinct strings. */
  lemma StatusNameRoundTrip(s: Status)
    ensures StatusOf(StatusName(s)) == Some(s)
  {
  }

  /** The `error_message` attribute: not present at all, DynamoDB's NULL, or a string. */
  datatype ErrorAttr = Absent | Null | Text(text: string)

  /** One status-table item; the `file_id` is its key in `Table`. Attributes a
      writer never set are `None`. */
  datatype Item = Item(
    originalFilename: Option<string>,
    status: Status,
    convertedFilename: Option<string>,
    createdAt: Option<int>,
    updatedAt: int,
    errorMessage: ErrorAttr)

  type Table = map<string, Item>

  /** An S3 object, by bucket and key. */
  datatype ObjectRef = ObjectRef(bucket: string, key: string)

  datatype World = World(table: Table, objects: set<ObjectRef>)

  /** `t` and `t'` hold the same item (or none) under `k`. */
  predicate AgreeOn(t: Table, t': Table, k: string)
  {
    (k in t <==> k in t') && (k in t ==> t[k] == t'[k])
  }

  /** The table without the item under `k`, when there is a `k`. Two tables
      with equal `Except` differ at most in that item. */
  function Except(t: Table, k: Option<string>): Table
  {
    if k.Some? then t - {k.value} else t
  }

  /** Tables that agree outside `k` agree on every other key. */
  lemma ExceptAgree(t: Table, t': Table, k: Option<string>, j: string)
    requires Except(t, k) == Except(t', k)
    requires k != Some(j)
    ensures AgreeOn(t, t', j)
  {
    assert j in t <==> j in Except(t, k);
    assert j in t' <==> j in Except(t', k);
    if j in t {
      assert t[j] == Except(t, k)[j];
      assert t'[j] == Except(t', k)[j];
    }
  }

  /** `error_message` holds a string exactly when the status is FAILED. */
  predicate ErrorIffFailed(t: Table)
  {
    forall k :: k in t ==> (t[k].errorMessage.Text? <==> t[k].status == Failed)
  }

  /** No item carries a `converted_filename`. */
  predicate NoConvertedFilename(t: Table)
  {
    forall k :: k in t ==> t[k].convertedFilename.None?
  }
}

=== FILE: wrappers.dfy ===
/** Failure-carrying datatypes shared by the model: a Python value that may be
    `None`, and a call that either returns or raises. */
module Wrappers {

  datatype Option<+T> = None | Some(value: T)

  /** `Ok` is a normal return; `Err` carries what the call raised. */
  datatype Result<+T, +E> = Ok(value: T) | Err(error: E)
}
